=== FILE: README.md ===
# Household inventory: a Dafny model of the data-access and reconciliation core

This project models the core of a small household-inventory application.
Items are grouped into genres (categories). An item below its minimum
quantity goes onto a shopping list. Stocktaking and completed purchases
write quantities back to the database.

The modelled parts are:

- **Query adapter** (`Db`, server/db.js). One `query(text, params)` runs over PostgreSQL or SQLite.
  - For PostgreSQL it rewrites `?` placeholders to `$1, $2, …`.
  - On SQLite it sends a statement to `all` when its trimmed, upper-cased text starts with `SELECT`, and to `run` otherwise.
  - It extracts `lastID` and gives each engine its own result shape.
  - Schema initialisation creates the genres table, then the items table, and logs and swallows a failure.
- **Database** (`Store`). The two tables are held in memory as maps plus id counters that start at 1.
  - Each SQL statement the server issues is one named operation: look a genre up by name, insert a genre or item, update or delete an item, set or increment a quantity, set a genre's order.
  - The column defaults of the DDL live here.
- **Inventory grouping** (`Inventory`, `GET /api/inventory`). The rows of `genres LEFT JOIN items` are regrouped into genre → items.
  - It is a streaming group-by: a map from genre id to entry detects each genre's first row.
  - The model proves the loop equal to a declarative definition.
- **Write endpoints** (`Server`):
  - find-or-create the genre, then insert the item;
  - full update and delete of an item;
  - three sequential batch loops: stocktaking, shopping completion and genre reorder.
- **Client derivations** (`ShoppingList`, `Stocktaking`):
  - the shopping list and its `to_buy` amounts;
  - the check toggle;
  - the purchase payload;
  - the stocktaking edit map and the batch it submits.

  End-to-end lemmas connect these payloads to the server loops.

Modelling choices:

- **Engine failures.** The engine may reject any statement; its reasons are not modelled. A request takes `rejectAt: Option<nat>`, the position (from 0, in issue order) of the first statement the engine rejects. The model proves three things about a rejected statement:
  - statements before it stay applied;
  - statements after it are never issued;
  - the handler answers with a server error.
- **Driver callbacks.** `pg` `query` and `sqlite3` `all`/`run` are function parameters of `Db.Query`.
- **Genre lookup order.** `SELECT id FROM genres WHERE name = ?` has no `ORDER BY`. Its "first row" is modelled as the genre with the smallest id. That is the order of SQLite's row-id scan; on PostgreSQL it is a chosen order (see "## Left out").
- **Grouping input.** The `ORDER BY g."order", i."order"` of the inventory query is not executed. `Inventory.GroupedSorted` takes sortedness of the rows as its precondition.
- **Edit map order.** The stocktaking edit map is a JavaScript object keyed by item id. Its integer keys enumerate in ascending order, so it is modelled as a list of edits kept in ascending id order.
- **`parseInt`.** It is modelled in radix 10: leading white space, an optional sign and a run of digits, with no digit giving NaN (`None`).

Facts about the code that the model keeps:

- A rejected query carries only the engine's error.
- The item INSERT always supplies `min_quantity` and `current_quantity`. So the column defaults 1 and 0 never apply to items created through the API. Only the item's `order` takes its default.
- `PUT /api/genres/reorder` does not validate its body. A missing `genres` answers with a server error.

## Model

| member | source | states |
|---|---|---|
| Text.ParseInt | client/src/pages/Stocktaking.jsx:24 | `parseInt` yields NaN exactly when, after leading white space and an optional sign, no digit follows |
| Text.ParseIntOfIntToString | client/src/pages/Stocktaking.jsx:30 | `parseInt(String(i))` gives back `i` for every integer, so an id recovered from an object key is the id that was stored |
| Text.DecimalRoundTrip | server/db.js:27 | the decimal rendering of a counter reads back as the same number |
| Db.RewriteFrom | server/db.js:26-27 | text without `?` is unchanged; the result has no `?`; every `?` becomes one `$` placeholder (the `$` count grows by exactly the `?` count) |
| Db.SplitMarks | server/db.js:27 | every text is its `?`-free pieces joined by single `?`, with one more piece than there are `?` |
| Db.RewriteNumbersMarks | server/db.js:26-27 | the k-th `?` from the left becomes `$k` (counting from the start value) and the text between placeholders is kept verbatim |
| Db.RewriteIsNumbering | server/db.js:25-27 | the PostgreSQL text is the original's `?`-free pieces joined by `$1`, `$2`, … with no gaps |
| Db.IsReadMeansBeginsWithSelect | server/db.js:41 | an SQLite statement is a read iff, after leading white space, it spells SELECT in any mix of letter cases |
| Db.PgLastId | server/db.js:32 | PostgreSQL's `lastID` is present iff there is a first row whose `id` is truthy, and is then that id |
| Db.Query | server/db.js:22-58 | any engine error rejects with the engine's message. PostgreSQL receives the rewritten text and resolves with its rows, its row count and the `lastID` read from the first row. SQLite sends reads to `all` (result: rows only) and writes to `run` (result: empty rows, `lastID`, `changes`) |
| Db.InsertedId | server/db.js:29-53 | after an INSERT, `lastID` is the generated id on SQLite, and on PostgreSQL only when `RETURNING id` was requested; otherwise it is null |
| Db.InitDb | server/db.js:81-87 | exactly the genres DDL, then the items DDL only if the genres DDL succeeded; an error is logged and not raised; a failed genres DDL changes no table; a failed items DDL leaves the genres table created |
| Db.InitDbIdempotent | server/db.js:65-79 | `CREATE TABLE IF NOT EXISTS`: running the initialisation again after a clean run leaves the tables as they are |
| Store.NewGenre | server/db.js:65-69 | a genre inserted without an order gets order 0 |
| Store.NewItem | server/db.js:71-79 | an item inserted without them gets `min_quantity` 1, `current_quantity` 0 and order 0 |
| Store.FirstGenreNamed | server/server.js:76-80 | no genre is found iff no genre has the name; otherwise the found genre has the name and the smallest id among those that do |
| Store.InsertGenre | server/server.js:83-86 | a new genre row under a fresh positive id; items untouched |
| Store.InsertItem | server/server.js:91-94 | a new item row under a fresh positive id; genres untouched |
| Store.UpdateItem | server/server.js:105-107 | only the addressed item changes (its order is kept); an unknown id changes nothing |
| Store.DeleteItem | server/server.js:113-114 | exactly the addressed item disappears; no cascade to genres |
| Store.SetCurrentQuantity | server/server.js:126 | only the addressed item's current quantity changes |
| Store.AddCurrentQuantity | server/server.js:137 | only the addressed item's current quantity changes, by the given amount |
| Store.SetGenreOrder | server/server.js:146 | only the addressed genre's order changes; items untouched |
| Inventory.GroupRows | server/server.js:31-55 | the map-driven loop produces exactly the declarative grouping `Grouped`, for any row order |
| Inventory.GenreIdsFirstRowOrder | server/server.js:35-45 | genre ids come out in the order of each genre's first row |
| Inventory.GroupedOncePerGenre | server/server.js:33-45 | each distinct genre id of the rows has exactly one entry, entries follow first-row order, and an entry's name and order are its first row's |
| Inventory.ItemsOfMembers | server/server.js:46-54 | an item row of a genre yields an item in that genre's list, and every listed item comes from such a row |
| Inventory.ItemlessGenreListedEmpty | server/server.js:46 | a genre whose rows carry no item is still listed, with an empty item list |
| Inventory.GroupedItemCount | server/server.js:46-54 | the total number of items over all entries equals the number of rows carrying an item |
| Inventory.GroupedSorted | server/server.js:19-55 | with rows in `ORDER BY` order, entries come out by ascending genre order and each entry's items by ascending item order |
| Server.CreateGenre | server/server.js:81-88 | the new genre, with the requested name and order 0, gets an id no existing genre has, and the resolved genre id is that id on both engines |
| Server.CreateItem | server/server.js:90-94 | the item row gets an id no existing item has and carries the resolved genre id and the request's fields; the reported `lastID` is its id on both engines |
| Server.AddItem | server/server.js:67-100 | missing names answer 400 before any statement. An existing genre name reuses the first such genre and creates none. An unknown name creates exactly one genre (order 0) and the item points at it. Exactly one item is added. At most the lookup, the genre insert when needed and the item insert are issued, so a request none of whose statements is rejected answers OK. A rejected statement is the last one issued, and a rejected item insert keeps the genre just created |
| Server.AddItemAcceptedIsOk | server/server.js:67-100 | a request with both names whose statements the engine all accepts answers OK |
| Server.Single | server/server.js:13-15 | one awaited statement is applied and answers OK iff the engine accepts it; a rejection answers with a server error and changes nothing |
| Server.UpdateItemHandler | server/server.js:103-109 | the answer is OK iff the engine accepts the statement, and a server error otherwise; only the addressed item changes; an unknown id answers OK and changes nothing |
| Server.DeleteItemHandler | server/server.js:112-116 | the answer is OK iff the engine accepts the statement, and a server error otherwise; only the addressed item is removed; genres are untouched; an unknown id answers OK and changes nothing |
| Server.RunBatch | server/server.js:125-127 | a rejected k-th statement leaves statements before k applied, never issues the ones after, and reports a server error; otherwise all are applied |
| Server.Stocktake | server/server.js:119-129 | a missing or non-array `updates` answers 400 and changes nothing; otherwise the batch runs with the loop's partial-failure behaviour |
| Server.CompleteShopping | server/server.js:132-140 | a missing or non-array `items` answers 400 and changes nothing; otherwise the increments run with the loop's partial-failure behaviour |
| Server.ReorderGenres | server/server.js:143-149 | a missing `genres` is a server error with no statement issued; otherwise the batch runs with the loop's partial-failure behaviour |
| Server.LastFor | server/server.js:125-127 | the position of the last batch element carrying the id, or -1 when none does; no later element carries it |
| Server.StocktakeEffect | server/server.js:125-127 | each known item ends with the last quantity listed for it, or keeps its own; no other field or row changes; unknown ids are no-ops |
| Server.CompleteShoppingEffect | server/server.js:136-138 | each known item's current quantity grows by the sum purchased for it; nothing else changes |
| Server.ReorderEffect | server/server.js:145-147 | each known genre ends with the last order listed for it; items are untouched |
| ShoppingList.BuildList | client/src/pages/ShoppingList.jsx:16-29 | every entry asks for `min_quantity - current_quantity`, which is at least 1, and starts unchecked |
| ShoppingList.GenreEntriesShape | client/src/pages/ShoppingList.jsx:19-27 | within one genre, exactly the items below their minimum get an entry carrying the genre's name |
| ShoppingList.OnListIffBelowMinimum | client/src/pages/ShoppingList.jsx:18-27 | an inventory item is on the list under its genre's name iff its current quantity is below its minimum, and every entry is such an item |
| ShoppingList.ListFollowsInventoryOrder | client/src/pages/ShoppingList.jsx:17-29 | the list is the inventory read genre by genre, item by item, keeping the items below minimum |
| ShoppingList.ToggleCheck | client/src/pages/ShoppingList.jsx:38-42 | only the check mark can change, and it flips exactly on the entries with the given id |
| ShoppingList.ToggleTwice | client/src/pages/ShoppingList.jsx:38-42 | toggling the same id twice restores the list |
| ShoppingList.PayloadIsCheckedEntries | client/src/pages/ShoppingList.jsx:45-50 | the payload holds a purchase of `to_buy` for each checked entry and nothing else; it is empty iff nothing is checked |
| ShoppingList.CheckedIndices | client/src/pages/ShoppingList.jsx:45-46 | the positions of exactly the checked entries, strictly ascending |
| ShoppingList.PayloadFollowsCheckedEntries | client/src/pages/ShoppingList.jsx:45-50 | the payload has one purchase per checked entry, in list order: its m-th purchase is the id and `to_buy` of the m-th checked entry |
| ShoppingList.CompleteShoppingRequest | client/src/pages/ShoppingList.jsx:44-52 | no request is sent iff nothing is checked; otherwise the request is the payload |
| ShoppingList.PurchaseRestoresMinimum | client/src/pages/ShoppingList.jsx:44-52 | applying the payload of a list read from the database brings every checked item exactly to its minimum, so it leaves the list; every other item is unchanged |
| Stocktaking.Lookup | client/src/pages/Stocktaking.jsx:21-26 | an id has no edit iff no entry carries it; a found quantity is the one recorded with that id |
| Stocktaking.QuantityInput | client/src/pages/Stocktaking.jsx:24 | input that does not parse becomes 0; otherwise the parsed value is kept |
| Stocktaking.Put | client/src/pages/Stocktaking.jsx:22-25 | the edit of the id is replaced or inserted; all other edits are kept; ids stay ascending |
| Stocktaking.HandleQuantityChange | client/src/pages/Stocktaking.jsx:21-26 | the id now maps to the typed quantity and every other id keeps its edit |
| Stocktaking.LaterEditWins | client/src/pages/Stocktaking.jsx:22-25 | typing twice into the same item leaves the edits the second input alone would have produced |
| Stocktaking.UniqueIds | client/src/pages/Stocktaking.jsx:21-26 | an id has at most one edit, and a lookup finds it |
| Stocktaking.UpdateFor | client/src/pages/Stocktaking.jsx:29-32 | one edit becomes the update `{id, current_quantity}` carrying the same id and quantity |
| Stocktaking.UpdateList | client/src/pages/Stocktaking.jsx:29-32 | exactly one update per edited id, in ascending id order, carrying that id's recorded quantity |
| Stocktaking.Submit | client/src/pages/Stocktaking.jsx:28-44 | nothing is sent iff there are no edits; the batch sent is the update list; once `fetch` resolves the edits are cleared whatever the server answered; an undelivered request keeps them |
| Stocktaking.SubmitDiscardsRejectedEdits | client/src/pages/Stocktaking.jsx:34-43 | a server error still clears the edits |
| Stocktaking.SubmitChecked | client/src/pages/Stocktaking.jsx:28-44 | the corrected submit clears the edits iff the server reported success (or there were none) |
| Stocktaking.SubmitSetsEditedQuantities | client/src/pages/Stocktaking.jsx:29-32 | after the submitted batch runs, an edited item holds the quantity last typed for it |
| Stocktaking.SubmitKeepsUneditedItems | client/src/pages/Stocktaking.jsx:29-32 | the submitted batch removes and adds no item, leaves the genres alone, and leaves every item without an edit unchanged |

## Left out

- Driver and connection setup, and choosing the engine from `DATABASE_URL` (server/db.js:1-19): the engine is a parameter and the driver callbacks are function parameters.
- SQL semantics: no statement text is parsed. Each statement is a `Store` operation, and the inventory query's join and `ORDER BY` become the input rows and a precondition.
- `GET /api/genres` (server/server.js:61-64) only returns the rows of `SELECT * FROM genres ORDER BY "order"`, which is SQL semantics.
- Express wiring, body parsing, response messages and `listen`; responses are reduced to OK, 400 or server error. The spread of the request body into the add-item response is not modelled.
- React rendering, hooks, `alert`, and refetching after a submit. The pages' input is the grouped inventory the server returns.
- Concurrency: each request is one sequential step, so the read-then-insert race of find-or-create (two requests creating the same new genre) is not represented.
- Text.ParseInt: does not model the `0x` hexadecimal prefix that `parseInt` accepts without a radix. A number input never produces one.
- Text.Upper: maps only the Latin letters a-z. `toUpperCase` is full Unicode case mapping, which does not matter for recognising `SELECT` in ASCII statement texts.
- Stocktaking.UpdateList: enumerates keys in ascending order. JavaScript does this only for keys that are array indices (0 to 2^32-2); negative ids would follow insertion order, but generated ids are positive.
- Values of unexpected type in request bodies (strings for numbers, missing fields inside batch elements) are not modelled.
- Stocktaking.QuantityInput: quantities and ids are unbounded integers. JavaScript numbers are doubles, so above 2^53 `parseInt` rounds and the typed value is not kept exactly.
- Stocktaking.SubmitSetsEditedQuantities: holds for the exact integers of the model. Past 2^53 the client would send a rounded quantity.
- PostgreSQL `INTEGER` columns are 32-bit, and SQLite integers are 64-bit. The engine rejects a value out of range, and the model covers that only as a rejection at some statement (`rejectAt`), not by the value.
- Store.FirstGenreNamed: on PostgreSQL, a `SELECT` without `ORDER BY` returns rows in physical order, which an `UPDATE` of a genre can change. With two genres of the same name, the server may reuse one other than the smallest id. The smallest id is the order SQLite's row-id scan gives, and is a chosen order for PostgreSQL.
- The identity-column declarations (`SERIAL` on PostgreSQL, `INTEGER PRIMARY KEY AUTOINCREMENT` on SQLite, server/db.js:62-63) are not modelled as text. Their effect is the per-table id counter of `Store`, starting at 1.
- Store.UpdateItem: stores any genre id. On PostgreSQL the foreign key of `items.genre_id` (server/db.js:78) makes an update or insert naming no genre fail. The model covers that only as an arbitrary engine rejection (`rejectAt`), not tied to the dangling id. SQLite never enables foreign-key checks and accepts it.
- Store.InsertGenre, Store.InsertItem: the id counters advance only on a successful insert. A PostgreSQL `SERIAL` sequence also spends a value on a rejected `INSERT`, so real ids can skip values; no contract depends on exact id values.
- Driver errors carry only a message; their kinds (constraint, syntax, connection) are not distinguished.

## Findings

| source | as written | input that shows it | evidently intended | confidence | as-written member | corrected member |
|---|---|---|---|---|---|---|
| client/src/pages/Stocktaking.jsx:34-43 | after `await fetch(...)` the edits are cleared and success is announced; `fetch` resolves on any HTTP status | a batch whose first UPDATE the engine rejects: the server answers 500 having stored nothing, and the form's edits are discarded | clear the edits only when the response reports success | medium; not executed | Stocktaking.SubmitDiscardsRejectedEdits | Stocktaking.SubmitChecked |

=== FILE: db.dfy ===
/**
 * The unified query interface of server/db.js: one `query(text, params)`
 * over either PostgreSQL or SQLite. The engine drivers are parameters
 * (their callbacks are opaque); the adapter's own logic is modelled:
 * placeholder rewriting, read/write dispatch, `lastID` extraction,
 * result shapes and the ordering of schema initialisation.
 */
module Db {
  import opened Wrappers
  import opened Text

  /** Which engine is active; chosen once from the environment. */
  datatype Engine = Postgres | Sqlite

  /** A column value as the drivers hand it back. */
  datatype Value = Null | Int(n: int) | Str(s: string)

  /** A result row: column name to value. */
  type Record = map<string, Value>

  /** JavaScript truthiness of a column value. */
  predicate Truthy(v: Value) {
    match v
    case Null => false
    case Int(n) => n != 0
    case Str(s) => s != ""
  }

  // ---------------------------------------------------------------------
  // Placeholder rewriting (PostgreSQL)
  // ---------------------------------------------------------------------

  function CountChar(s: string, c: char): nat {
    if |s| == 0 then 0 else (if s[0] == c then 1 else 0) + CountChar(s[1..], c)
  }

  /**
   * `text.replace(/\?/g, () => `$${paramCount++}`)` with the counter
   * starting at `next`: every `?` becomes `$` followed by the counter's
   * current value, which then advances.
   */
  function RewriteFrom(text: string, next: nat): (r: string)
    ensures CountChar(text, '?') == 0 ==> r == text
    ensures CountChar(r, '?') == 0
    ensures CountChar(r, '$') == CountChar(text, '$') + CountChar(text, '?')
  {
    if |text| == 0 then ""
    else if text[0] == '?' then
      var d := Decimal(next);
      NoMarksInDigits(d);
      CountConcat("$" + d, RewriteFrom(text[1..], next + 1), '?');
      CountConcat("$" + d, RewriteFrom(text[1..], next + 1), '$');
      CountConcat("$", d, '$');
      CountConcat("$", d, '?');
      "$" + d + RewriteFrom(text[1..], next + 1)
    else
      CountConcat([text[0]], RewriteFrom(text[1..], next), '?');
      CountConcat([text[0]], RewriteFrom(text[1..], next), '$');
      [text[0]] + RewriteFrom(text[1..], next)
  }

  /** The text PostgreSQL receives: placeholders numbered from `$1`. */
  function Rewrite(text: string): string {
    RewriteFrom(text, 1)
  }

  lemma {:induction false} CountConcat(a: string, b: string, c: char)
    ensures CountChar(a + b, c) == CountChar(a, c) + CountChar(b, c)
  {
    if |a| > 0 {
      assert (a + b)[1..] == a[1..] + b;
      CountConcat(a[1..], b, c);
    } else {
      assert a + b == b;
    }
  }

  lemma {:induction false} NoMarksInDigits(d: string)
    requires AllDigits(d)
    ensures CountChar(d, '?') == 0 && CountChar(d, '$') == 0
  {
    if |d| > 0 {
      NoMarksInDigits(d[1..]);
    }
  }

  /** The text made of `segs` separated by single `?` placeholders. */
  function JoinMarks(segs: seq<string>): string
    requires |segs| >= 1
  {
    if |segs| == 1 then segs[0] else segs[0] + "?" + JoinMarks(segs[1..])
  }

  /** The text made of `segs` separated by `$next`, `$next+1`, ... */
  function JoinNumbered(segs: seq<string>, next: nat): string
    requires |segs| >= 1
  {
    if |segs| == 1 then segs[0] else segs[0] + "$" + Decimal(next) + JoinNumbered(segs[1..], next + 1)
  }

  predicate MarkFree(segs: seq<string>) {
    forall i :: 0 <= i < |segs| ==> CountChar(segs[i], '?') == 0
  }

  /** Splits `text` at every `?`, the inverse of `JoinMarks`. */
  function SplitMarks(text: string): (segs: seq<string>)
    ensures |segs| == CountChar(text, '?') + 1
    ensures MarkFree(segs)
    ensures JoinMarks(segs) == text
  {
    if |text| == 0 then [""]
    else
      var rest := SplitMarks(text[1..]);
      if text[0] == '?' then
        assert text == "" + "?" + JoinMarks(rest);
        [""] + rest
      else
        assert [text[0]] + rest[0] + "?" == [text[0]] + (rest[0] + "?");
        assert CountChar([text[0]] + rest[0], '?') == 0 by {
          CountConcat([text[0]], rest[0], '?');
        }
        var segs := [[text[0]] + rest[0]] + rest[1..];
        assert segs[1..] == rest[1..];
        assert JoinMarks(segs) == text by {
          if |rest| > 1 {
            assert JoinMarks(rest) == rest[0] + "?" + JoinMarks(rest[1..]);
          }
        }
        segs
  }

  lemma {:induction false} RewriteConcat(a: string, b: string, next: nat)
    ensures RewriteFrom(a + b, next) == RewriteFrom(a, next) + RewriteFrom(b, next + CountChar(a, '?'))
  {
    if |a| > 0 {
      assert (a + b)[1..] == a[1..] + b;
      RewriteConcat(a[1..], b, if a[0] == '?' then next + 1 else next);
    } else {
      assert a + b == b;
    }
  }

  /**
   * The k-th placeholder from the left (counting from `next`) becomes
   * `$k`, and the text between placeholders is kept verbatim.
   */
  lemma {:induction false} RewriteNumbersMarks(segs: seq<string>, next: nat)
    requires |segs| >= 1 && MarkFree(segs)
    ensures RewriteFrom(JoinMarks(segs), next) == JoinNumbered(segs, next)
  {
    if |segs| > 1 {
      var rest := JoinMarks(segs[1..]);
      RewriteConcat(segs[0] + "?", rest, next);
      RewriteConcat(segs[0], "?", next);
      RewriteNumbersMarks(segs[1..], next + 1);
      CountConcat(segs[0], "?", '?');
    }
  }

  /** Every text is rewritten to its `?`-free pieces joined by `$1`, `$2`, ... */
  lemma RewriteIsNumbering(text: string)
    ensures Rewrite(text) == JoinNumbered(SplitMarks(text), 1)
  {
    RewriteNumbersMarks(SplitMarks(text), 1);
  }

  // ---------------------------------------------------------------------
  // Read/write dispatch (SQLite)
  // ---------------------------------------------------------------------

  const SelectKeyword := "SELECT"

  /** `text.trim().toUpperCase().startsWith('SELECT')`. */
  predicate IsRead(text: string) {
    SelectKeyword <= Upper(Trim(text))
  }

  /**
   * The same test stated without trimming: after some white space the
   * text spells "select" in any mix of cases.
   */
  ghost predicate BeginsWithSelect(text: string) {
    exists k :: 0 <= k && k + 6 <= |text| && AllSpace(text[..k]) && Upper(text[k..k + 6]) == SelectKeyword
  }

  lemma IsReadMeansBeginsWithSelect(text: string)
    ensures IsRead(text) <==> BeginsWithSelect(text)
  {
    if IsRead(text) {
      IsReadBegins(text);
    }
    if BeginsWithSelect(text) {
      var j :| 0 <= j && j + 6 <= |text| && AllSpace(text[..j]) && Upper(text[j..j + 6]) == SelectKeyword;
      BeginsIsRead(text, j);
    }
  }

  lemma IsReadBegins(text: string)
    requires IsRead(text)
    ensures BeginsWithSelect(text)
  {
    var k := LeadingSpace(text);
    var t := text[k..];
    var trimmed := Trim(text);
    assert trimmed == TrimEnd(t);
    assert |trimmed| >= 6;
    assert trimmed[..6] == text[k..k + 6];
    assert Upper(text[k..k + 6]) == Upper(trimmed)[..6];
  }

  lemma BeginsIsRead(text: string, j: nat)
    requires j + 6 <= |text| && AllSpace(text[..j]) && Upper(text[j..j + 6]) == SelectKeyword
    ensures IsRead(text)
  {
    var k := LeadingSpace(text);
    assert !IsSpace(text[j]) by {
      assert Upper(text[j..j + 6])[0] == UpperChar(text[j]);
    }
    assert j == k;
    var t := text[j..];
    forall i | 0 <= i < 6
      ensures !IsSpace(t[i])
    {
      assert Upper(text[j..j + 6])[i] == UpperChar(t[i]);
    }
    TrimEndKeepsPrefix(t, 6);
    var trimmed := TrimEnd(t);
    assert trimmed == Trim(text);
    assert trimmed[..6] == text[j..j + 6];
    assert Upper(trimmed)[..6] == Upper(text[j..j + 6]);
  }

  lemma {:induction false} TrimEndKeepsPrefix(s: string, n: nat)
    requires n <= |s|
    requires forall i :: 0 <= i < n ==> !IsSpace(s[i])
    ensures |TrimEnd(s)| >= n
  {
    if |s| > 0 && IsSpace(s[|s| - 1]) {
      TrimEndKeepsPrefix(s[..|s| - 1], n);
    }
  }

  // ---------------------------------------------------------------------
  // Drivers, result shapes and the query itself
  // ---------------------------------------------------------------------

  /** The `pg` pool's callback: an error, or the rows and `rowCount`. */
  datatype PgReply = PgError(message: string) | PgRows(rows: seq<Record>, rowCount: int)

  /** `sqlite3`'s `all` callback: an error, or every row. */
  datatype AllReply = AllError(message: string) | AllRows(rows: seq<Record>)

  /** `sqlite3`'s `run` callback: an error, or `this.lastID` and `this.changes`. */
  datatype RunReply = RunError(message: string) | RunDone(lastId: int, changes: int)

  /** The opaque engine calls, as functions of the text and parameters they receive. */
  datatype Driver = Driver(
    pg: (string, seq<Value>) -> PgReply,
    all: (string, seq<Value>) -> AllReply,
    run: (string, seq<Value>) -> RunReply)

  /**
   * What `query` resolves with: PostgreSQL gives `{rows, lastID, rowCount}`,
   * an SQLite read gives `{rows}`, an SQLite write gives
   * `{rows: [], lastID, changes}`.
   */
  datatype QueryResult =
    | PgResult(rows: seq<Record>, lastId: Option<Value>, rowCount: int)
    | ReadResult(rows: seq<Record>)
    | WriteResult(insertedId: int, changes: int)
  {
    function Rows(): seq<Record> {
      if WriteResult? then [] else rows
    }

    /** `result.lastID` as the server reads it; absent or null is `None`. */
    function LastID(): Option<Value> {
      match this
      case PgResult(_, id, _) => id
      case ReadResult(_) => None
      case WriteResult(id, _) => Some(Int(id))
    }
  }

  /** `res.rows.length > 0 && res.rows[0].id ? res.rows[0].id : null`. */
  function PgLastId(rows: seq<Record>): (r: Option<Value>)
    ensures r.Some? <==> |rows| > 0 && "id" in rows[0] && Truthy(rows[0]["id"])
    ensures r.Some? ==> r.value == rows[0]["id"] && Truthy(r.value)
  {
    if |rows| > 0 && "id" in rows[0] && Truthy(rows[0]["id"]) then Some(rows[0]["id"]) else None
  }

  /** `query(text, params)`: one attempt on the active engine, rejected on any engine error. */
  function Query(engine: Engine, driver: Driver, text: string, params: seq<Value>): (r: Result<QueryResult, string>)
    ensures engine == Postgres ==>
              match driver.pg(Rewrite(text), params)
              case PgError(m) => r == Failure(m)
              case PgRows(rows, n) => r == Success(PgResult(rows, PgLastId(rows), n))
    ensures engine == Sqlite && BeginsWithSelect(text) ==>
              match driver.all(text, params)
              case AllError(m) => r == Failure(m)
              case AllRows(rows) => r == Success(ReadResult(rows))
    ensures engine == Sqlite && !BeginsWithSelect(text) ==>
              match driver.run(text, params)
              case RunError(m) => r == Failure(m)
              case RunDone(id, n) => r.Success? && r.value.Rows() == [] && r.value.LastID() == Some(Int(id)) && r.value == WriteResult(id, n)
  {
    IsReadMeansBeginsWithSelect(text);
    match engine
    case Postgres =>
      (match driver.pg(Rewrite(text), params)
       case PgError(m) => Failure(m)
       case PgRows(rows, n) => Success(PgResult(rows, PgLastId(rows), n)))
    case Sqlite =>
      if IsRead(text) then
        (match driver.all(text, params)
         case AllError(m) => Failure(m)
         case AllRows(rows) => Success(ReadResult(rows)))
      else
        (match driver.run(text, params)
         case RunError(m) => Failure(m)
         case RunDone(id, n) => Success(WriteResult(id, n)))
  }

  /**
   * The rows PostgreSQL returns for an INSERT of a row whose generated id
   * is `newId`: the id only when the statement ends in `RETURNING id`.
   */
  function PgInsertRows(returningId: bool, newId: int): seq<Record> {
    if returningId then [map["id" := Int(newId)]] else []
  }

  /**
   * `lastID` after an INSERT that generated `newId`. On SQLite it is the
   * driver's own last-insert id; on PostgreSQL it is read from the rows.
   */
  function InsertedId(engine: Engine, returningId: bool, newId: int): (r: Option<Value>)
    requires newId >= 1
    ensures r == Some(Int(newId)) <==> engine == Sqlite || returningId
    ensures r.None? <==> engine == Postgres && !returningId
  {
    match engine
    case Postgres => PgResult(PgInsertRows(returningId, newId), PgLastId(PgInsertRows(returningId, newId)), 1).LastID()
    case Sqlite => WriteResult(newId, 1).LastID()
  }

  // ---------------------------------------------------------------------
  // Schema initialisation
  // ---------------------------------------------------------------------

  datatype Table = Genres | Items

  datatype InitLog = Initialized | InitError(message: string)

  /** The statements issued, the tables present afterwards and what was logged. */
  datatype InitRun = InitRun(issued: seq<Table>, tables: set<Table>, log: InitLog)

  /** `CREATE TABLE IF NOT EXISTS`: a no-op when the table is there. */
  function CreateIfMissing(tables: set<Table>, t: Table): set<Table> {
    tables + {t}
  }

  /**
   * `initDb`: create the genres table, then the items table, inside one
   * try block. `reject(t)` is the engine's error for the DDL of `t`, if
   * any. A failure is logged and never raised.
   */
  function InitDb(tables: set<Table>, reject: Table -> Option<string>): (r: InitRun)
    ensures |r.issued| >= 1 && r.issued[0] == Genres
    ensures r.issued == (if reject(Genres).Some? then [Genres] else [Genres, Items])
    ensures Items in r.issued <==> reject(Genres).None?
    ensures r.log.InitError? <==> exists t :: t in r.issued && reject(t).Some?
    ensures r.log == Initialized ==> r.tables == tables + {Genres, Items}
    ensures r.tables <= tables + {Genres, Items} && tables <= r.tables
    ensures reject(Genres).Some? ==> r.tables == tables
    ensures reject(Genres).None? && reject(Items).Some? ==> r.tables == tables + {Genres}
  {
    match reject(Genres)
    case Some(m) => InitRun([Genres], tables, InitError(m))
    case None =>
      var afterGenres := CreateIfMissing(tables, Genres);
      match reject(Items)
      case Some(m) => InitRun([Genres, Items], afterGenres, InitError(m))
      case None => InitRun([Genres, Items], CreateIfMissing(afterGenres, Items), Initialized)
  }

  /** Running the initialisation again on its own result changes nothing. */
  lemma InitDbIdempotent(tables: set<Table>, reject: Table -> Option<string>)
    requires InitDb(tables, reject).log == Initialized
    ensures InitDb(InitDb(tables, reject).tables, reject).tables == InitDb(tables, reject).tables
  {
  }
}

=== FILE: inventory.dfy ===
/**
 * `GET /api/inventory` in server/server.js: the rows of
 * `genres LEFT JOIN items` are regrouped into one entry per genre, each
 * carrying its items. A map from genre id to the genre's entry detects the
 * first row of each genre, so the grouping does not rely on rows of one
 * genre being contiguous: two genres with the same order can have their
 * rows interleaved by `ORDER BY g."order", i."order"`.
 */
module Inventory {
  import opened Wrappers

  /** One row of the join; the item columns are null when the genre has no item. */
  datatype Row = Row(genreId: int, genreName: string, genreOrder: int,
                     itemId: Option<int>, itemName: string, minQuantity: int, currentQuantity: int, itemOrder: int)

  datatype ItemView = ItemView(id: int, name: string, minQuantity: int, currentQuantity: int, order: int)

  datatype GenreView = GenreView(id: int, name: string, order: int, items: seq<ItemView>)

  /** `if (row.item_id)`: a null or zero item id carries no item. */
  predicate HasItem(r: Row) {
    r.itemId.Some? && r.itemId.value != 0
  }

  function ItemOf(r: Row): ItemView
    requires HasItem(r)
  {
    ItemView(r.itemId.value, r.itemName, r.minQuantity, r.currentQuantity, r.itemOrder)
  }

  // ---------------------------------------------------------------------
  // The intended result, stated without the map
  // ---------------------------------------------------------------------

  /** The distinct genre ids of `rows`, in order of their first row. */
  function GenreIds(rows: seq<Row>): (ids: seq<int>)
    ensures forall i, j :: 0 <= i < j < |ids| ==> ids[i] != ids[j]
    ensures forall g :: g in ids <==> exists k :: 0 <= k < |rows| && rows[k].genreId == g
  {
    if |rows| == 0 then []
    else
      var init := rows[..|rows| - 1];
      var p := GenreIds(init);
      var g := rows[|rows| - 1].genreId;
      assert forall k :: 0 <= k < |init| ==> init[k] == rows[k];
      if g in p then p else p + [g]
  }

  /** The index of the first row of genre `g`, or `|rows|` when there is none. */
  function FirstIndex(rows: seq<Row>, g: int): (k: nat)
    ensures k <= |rows|
    ensures k < |rows| ==> rows[k].genreId == g
    ensures forall j :: 0 <= j < k ==> rows[j].genreId != g
  {
    if |rows| == 0 then 0
    else if rows[0].genreId == g then 0
    else 1 + FirstIndex(rows[1..], g)
  }

  /** The items of genre `g`: one per row of `g` that carries an item, in row order. */
  function ItemsOf(rows: seq<Row>, g: int): seq<ItemView> {
    if |rows| == 0 then []
    else
      var last := rows[|rows| - 1];
      ItemsOf(rows[..|rows| - 1], g) + (if last.genreId == g && HasItem(last) then [ItemOf(last)] else [])
  }

  /** Genre `g` as its first row describes it, with all its items. */
  function View(rows: seq<Row>, g: int): GenreView
    requires g in GenreIds(rows)
  {
    var first := rows[FirstIndex(rows, g)];
    GenreView(g, first.genreName, first.genreOrder, ItemsOf(rows, g))
  }

  /** The expected inventory: one view per distinct genre id, in first-row order. */
  function Grouped(rows: seq<Row>): (inventory: seq<GenreView>)
    ensures |inventory| == |GenreIds(rows)|
    ensures forall k :: 0 <= k < |inventory| ==> inventory[k] == View(rows, GenreIds(rows)[k])
  {
    var ids := GenreIds(rows);
    seq(|ids|, k requires 0 <= k < |ids| => View(rows, ids[k]))
  }

  // ---------------------------------------------------------------------
  // The streaming algorithm
  // ---------------------------------------------------------------------

  /**
   * The `rows.forEach` loop: a genre's entry is created at its first row
   * and remembered by id; every row with an item appends it to the entry
   * of its genre.
   */
  method GroupRows(rows: seq<Row>) returns (inventory: seq<GenreView>)
    ensures inventory == Grouped(rows)
  {
    inventory := [];
    var entry: map<int, nat> := map[];
    for i := 0 to |rows|
      invariant inventory == Grouped(rows[..i])
      invariant forall g :: g in entry <==> g in GenreIds(rows[..i])
      invariant forall g :: g in entry ==> entry[g] < |inventory| && inventory[entry[g]].id == g
    {
      var row := rows[i];
      assert rows[..i + 1] == rows[..i] + [row];
      if row.genreId !in entry {
        entry := entry[row.genreId := |inventory|];
        inventory := inventory + [GenreView(row.genreId, row.genreName, row.genreOrder, [])];
      }
      if HasItem(row) {
        var p := entry[row.genreId];
        inventory := inventory[p := inventory[p].(items := inventory[p].items + [ItemOf(row)])];
      }
      if row.genreId in GenreIds(rows[..i]) {
        var ids := GenreIds(rows[..i]);
        var p := entry[row.genreId];
        assert ids[p] == row.genreId;
        GroupedSnocOld(rows[..i], row, p);
      } else {
        GroupedSnocNew(rows[..i], row);
      }
    }
    assert rows[..|rows|] == rows;
  }

  lemma FirstIndexSnoc(rows: seq<Row>, r: Row, g: int)
    ensures FirstIndex(rows + [r], g) == (if FirstIndex(rows, g) < |rows| then FirstIndex(rows, g)
                                          else if r.genreId == g then |rows| else |rows| + 1)
  {
    var q := rows + [r];
    assert forall j :: 0 <= j < |rows| ==> q[j] == rows[j];
    assert q[|rows|] == r;
  }

  lemma ItemsOfSnoc(rows: seq<Row>, r: Row, g: int)
    ensures ItemsOf(rows + [r], g) == ItemsOf(rows, g) + (if r.genreId == g && HasItem(r) then [ItemOf(r)] else [])
  {
    var q := rows + [r];
    assert q[..|q| - 1] == rows;
  }

  lemma ViewSnoc(rows: seq<Row>, r: Row, g: int)
    requires g in GenreIds(rows)
    ensures g in GenreIds(rows + [r])
    ensures View(rows + [r], g) == View(rows, g).(items := ItemsOf(rows + [r], g))
  {
    FirstIndexSnoc(rows, r, g);
    assert (rows + [r])[..|rows|] == rows;
    assert (rows + [r])[FirstIndex(rows, g)] == rows[FirstIndex(rows, g)];
  }

  /** A row of a genre not seen before opens a new entry at the end. */
  lemma GroupedSnocNew(rows: seq<Row>, r: Row)
    requires r.genreId !in GenreIds(rows)
    ensures Grouped(rows + [r]) ==
            Grouped(rows) + [GenreView(r.genreId, r.genreName, r.genreOrder, if HasItem(r) then [ItemOf(r)] else [])]
  {
    var q := rows + [r];
    assert q[..|q| - 1] == rows;
    var ids := GenreIds(rows);
    assert GenreIds(q) == ids + [r.genreId];
    var expected := Grouped(rows) + [GenreView(r.genreId, r.genreName, r.genreOrder, if HasItem(r) then [ItemOf(r)] else [])];
    forall k | 0 <= k < |ids|
      ensures Grouped(q)[k] == expected[k]
    {
      ViewSnoc(rows, r, ids[k]);
      ItemsOfSnoc(rows, r, ids[k]);
    }
    FirstIndexSnoc(rows, r, r.genreId);
    ItemsOfNone(rows, r.genreId);
    ItemsOfSnoc(rows, r, r.genreId);
    assert q[|rows|] == r;
    assert Grouped(q)[|ids|] == View(q, r.genreId) == expected[|ids|];
    assert Grouped(q) == expected;
  }

  /** A row of a genre already seen adds its item, if any, to that genre's entry only. */
  lemma GroupedSnocOld(rows: seq<Row>, r: Row, p: nat)
    requires p < |GenreIds(rows)| && GenreIds(rows)[p] == r.genreId
    ensures Grouped(rows + [r]) ==
            (if HasItem(r) then Grouped(rows)[p := Grouped(rows)[p].(items := Grouped(rows)[p].items + [ItemOf(r)])]
             else Grouped(rows))
  {
    var q := rows + [r];
    assert q[..|q| - 1] == rows;
    var ids := GenreIds(rows);
    assert GenreIds(q) == ids;
    var prior := Grouped(rows);
    var expected := if HasItem(r) then prior[p := prior[p].(items := prior[p].items + [ItemOf(r)])] else prior;
    forall k | 0 <= k < |ids|
      ensures Grouped(q)[k] == expected[k]
    {
      ViewSnoc(rows, r, ids[k]);
      ItemsOfSnoc(rows, r, ids[k]);
    }
    assert Grouped(q) == expected;
  }

  // ---------------------------------------------------------------------
  // Properties of the grouping
  // ---------------------------------------------------------------------

  lemma FirstIndexFound(rows: seq<Row>, g: int)
    ensures g in GenreIds(rows) <==> FirstIndex(rows, g) < |rows|
  {
    if g in GenreIds(rows) {
      var k :| 0 <= k < |rows| && rows[k].genreId == g;
    }
  }

  /** Genre ids are listed in the order of their first rows. */
  lemma {:induction false} GenreIdsFirstRowOrder(rows: seq<Row>)
    ensures forall i, j :: 0 <= i < j < |GenreIds(rows)| ==>
              FirstIndex(rows, GenreIds(rows)[i]) < FirstIndex(rows, GenreIds(rows)[j])
  {
    if |rows| > 0 {
      var init := rows[..|rows| - 1];
      var r := rows[|rows| - 1];
      assert rows == init + [r];
      GenreIdsFirstRowOrder(init);
      var ids := GenreIds(init);
      forall h | h in ids
        ensures FirstIndex(rows, h) == FirstIndex(init, h) < |init|
      {
        FirstIndexFound(init, h);
        FirstIndexSnoc(init, r, h);
      }
      if r.genreId !in ids {
        FirstIndexSnoc(init, r, r.genreId);
        FirstIndexFound(init, r.genreId);
      }
    }
  }

  /**
   * Each distinct genre id of the rows has exactly one entry, entries are
   * in the order of each genre's first row, and an entry's name and order
   * are those of its genre's first row.
   */
  lemma GroupedOncePerGenre(rows: seq<Row>)
    ensures forall i, j :: 0 <= i < j < |Grouped(rows)| ==> Grouped(rows)[i].id != Grouped(rows)[j].id
    ensures forall k :: 0 <= k < |rows| ==> exists j :: 0 <= j < |Grouped(rows)| && Grouped(rows)[j].id == rows[k].genreId
    ensures forall j :: 0 <= j < |Grouped(rows)| ==>
              var first := FirstIndex(rows, Grouped(rows)[j].id);
              && first < |rows|
              && Grouped(rows)[j].name == rows[first].genreName
              && Grouped(rows)[j].order == rows[first].genreOrder
    ensures forall i, j :: 0 <= i < j < |Grouped(rows)| ==>
              FirstIndex(rows, Grouped(rows)[i].id) < FirstIndex(rows, Grouped(rows)[j].id)
  {
    var ids := GenreIds(rows);
    var out := Grouped(rows);
    forall k | 0 <= k < |rows|
      ensures exists j :: 0 <= j < |out| && out[j].id == rows[k].genreId
    {
      var g := rows[k].genreId;
      assert g in ids;
      var j :| 0 <= j < |ids| && ids[j] == g;
      assert out[j].id == g;
    }
    forall j | 0 <= j < |out|
      ensures FirstIndex(rows, out[j].id) < |rows|
    {
      FirstIndexFound(rows, ids[j]);
    }
    GenreIdsFirstRowOrder(rows);
  }

  /** An item row of genre `g` yields an item of `g`, and every item of `g` comes from such a row. */
  lemma {:induction false} ItemsOfMembers(rows: seq<Row>, g: int)
    ensures forall k :: 0 <= k < |rows| && rows[k].genreId == g && HasItem(rows[k]) ==> ItemOf(rows[k]) in ItemsOf(rows, g)
    ensures forall it :: it in ItemsOf(rows, g) ==>
              exists k :: 0 <= k < |rows| && rows[k].genreId == g && HasItem(rows[k]) && ItemOf(rows[k]) == it
  {
    if |rows| > 0 {
      var init := rows[..|rows| - 1];
      var r := rows[|rows| - 1];
      assert rows == init + [r];
      ItemsOfMembers(init, g);
      ItemsOfSnoc(init, r, g);
      assert forall k :: 0 <= k < |init| ==> init[k] == rows[k];
    }
  }

  lemma {:induction false} ItemsOfNone(rows: seq<Row>, g: int)
    requires forall k :: 0 <= k < |rows| && rows[k].genreId == g ==> !HasItem(rows[k])
    ensures ItemsOf(rows, g) == []
  {
    if |rows| > 0 {
      var init := rows[..|rows| - 1];
      assert forall k :: 0 <= k < |init| ==> init[k] == rows[k];
      ItemsOfNone(init, g);
    }
  }

  /** A genre none of whose rows carries an item is listed with no items. */
  lemma ItemlessGenreListedEmpty(rows: seq<Row>, g: int)
    requires exists k :: 0 <= k < |rows| && rows[k].genreId == g
    requires forall k :: 0 <= k < |rows| && rows[k].genreId == g ==> !HasItem(rows[k])
    ensures exists j :: 0 <= j < |Grouped(rows)| && Grouped(rows)[j].id == g && Grouped(rows)[j].items == []
  {
    var ids := GenreIds(rows);
    assert g in ids;
    var j :| 0 <= j < |ids| && ids[j] == g;
    ItemsOfMembers(rows, g);
    ItemsOfNone(rows, g);
    assert Grouped(rows)[j].items == ItemsOf(rows, g);
  }

  /** The number of rows that carry an item. */
  function CountItemRows(rows: seq<Row>): nat {
    if |rows| == 0 then 0 else CountItemRows(rows[..|rows| - 1]) + (if HasItem(rows[|rows| - 1]) then 1 else 0)
  }

  /** The number of items over all entries. */
  function TotalItems(inventory: seq<GenreView>): nat {
    if |inventory| == 0 then 0 else |inventory[0].items| + TotalItems(inventory[1..])
  }

  lemma {:induction false} TotalItemsAppend(a: seq<GenreView>, v: GenreView)
    ensures TotalItems(a + [v]) == TotalItems(a) + |v.items|
  {
    if |a| > 0 {
      assert (a + [v])[1..] == a[1..] + [v];
      TotalItemsAppend(a[1..], v);
    } else {
      assert (a + [v])[1..] == [];
    }
  }

  lemma {:induction false} TotalItemsGrow(a: seq<GenreView>, p: nat, it: ItemView)
    requires p < |a|
    ensures TotalItems(a[p := a[p].(items := a[p].items + [it])]) == TotalItems(a) + 1
  {
    var b := a[p := a[p].(items := a[p].items + [it])];
    if p == 0 {
      assert b[1..] == a[1..];
    } else {
      assert b[1..] == a[1..][p - 1 := a[p].(items := a[p].items + [it])];
      TotalItemsGrow(a[1..], p - 1, it);
    }
  }

  /** Every row that carries an item contributes exactly one item to the inventory, and no other row does. */
  lemma {:induction false} GroupedItemCount(rows: seq<Row>)
    ensures TotalItems(Grouped(rows)) == CountItemRows(rows)
  {
    if |rows| > 0 {
      var init := rows[..|rows| - 1];
      var r := rows[|rows| - 1];
      assert rows == init + [r];
      GroupedItemCount(init);
      var ids := GenreIds(init);
      if r.genreId in ids {
        var p :| 0 <= p < |ids| && ids[p] == r.genreId;
        GroupedSnocOld(init, r, p);
        if HasItem(r) {
          TotalItemsGrow(Grouped(init), p, ItemOf(r));
        }
      } else {
        GroupedSnocNew(init, r);
        TotalItemsAppend(Grouped(init), GenreView(r.genreId, r.genreName, r.genreOrder, if HasItem(r) then [ItemOf(r)] else []));
      }
    }
  }

  /** Rows of one genre agree on the genre's columns, as rows of a join do. */
  predicate GenreColumnsAgree(rows: seq<Row>) {
    forall i, j :: 0 <= i < |rows| && 0 <= j < |rows| && rows[i].genreId == rows[j].genreId ==>
      rows[i].genreOrder == rows[j].genreOrder && rows[i].genreName == rows[j].genreName
  }

  /** `ORDER BY g."order", i."order"` as seen by the grouping. */
  predicate SortedByOrders(rows: seq<Row>) {
    && (forall i, j :: 0 <= i < j < |rows| ==> rows[i].genreOrder <= rows[j].genreOrder)
    && (forall i, j :: 0 <= i < j < |rows| && HasItem(rows[i]) && HasItem(rows[j]) && rows[i].genreOrder == rows[j].genreOrder
          ==> rows[i].itemOrder <= rows[j].itemOrder)
  }

  predicate ItemsSorted(items: seq<ItemView>) {
    forall i, j :: 0 <= i < j < |items| ==> items[i].order <= items[j].order
  }

  lemma {:induction false} ItemsOfSorted(rows: seq<Row>, g: int)
    requires GenreColumnsAgree(rows) && SortedByOrders(rows)
    ensures ItemsSorted(ItemsOf(rows, g))
  {
    if |rows| > 0 {
      var init := rows[..|rows| - 1];
      var r := rows[|rows| - 1];
      assert rows == init + [r];
      assert forall k :: 0 <= k < |init| ==> init[k] == rows[k];
      ItemsOfSorted(init, g);
      ItemsOfSnoc(init, r, g);
      if r.genreId == g && HasItem(r) {
        ItemsOfMembers(init, g);
        var items := ItemsOf(init, g);
        forall i | 0 <= i < |items|
          ensures items[i].order <= r.itemOrder
        {
          assert items[i] in items;
          var k :| 0 <= k < |init| && init[k].genreId == g && HasItem(init[k]) && ItemOf(init[k]) == items[i];
          assert rows[k].genreOrder == rows[|rows| - 1].genreOrder;
        }
      }
    }
  }

  /**
   * Given rows in `ORDER BY` order, the entries come out by ascending genre
   * order and each entry's items by ascending item order.
   */
  lemma GroupedSorted(rows: seq<Row>)
    requires GenreColumnsAgree(rows) && SortedByOrders(rows)
    ensures forall i, j :: 0 <= i < j < |Grouped(rows)| ==> Grouped(rows)[i].order <= Grouped(rows)[j].order
    ensures forall j :: 0 <= j < |Grouped(rows)| ==> ItemsSorted(Grouped(rows)[j].items)
  {
    GroupedOncePerGenre(rows);
    var out := Grouped(rows);
    forall j | 0 <= j < |out|
      ensures ItemsSorted(out[j].items)
    {
      ItemsOfSorted(rows, GenreIds(rows)[j]);
    }
  }
}

=== FILE: server.dfy ===
/**
 * The write endpoints of server/server.js over the in-memory database.
 * Each SQL statement the handler awaits is one `Store` operation. The
 * engine may reject a statement: `rejectAt` is the position (from 0, in
 * issue order within the request) of the first statement it rejects.
 * A rejection propagates out of the handler as a server error; statements
 * already executed stay applied and later ones are never issued.
 */
module Server {
  import opened Wrappers
  import opened Store
  import Db

  datatype Status = Ok | BadRequest | ServerError

  /** What a request leaves behind: its status, the database and how many statements it issued. */
  datatype Outcome = Outcome(status: Status, db: Database, issued: nat)

  predicate Rejects(rejectAt: Option<nat>, k: nat) {
    rejectAt == Some(k)
  }

  // ---------------------------------------------------------------------
  // POST /api/items: find-or-create the genre, then insert the item
  // ---------------------------------------------------------------------

  datatype NewItemRequest = NewItemRequest(genreName: string, name: string, minQuantity: int, currentQuantity: int)

  /** The outcome plus the ids the response reports: the item's `lastID` and the resolved genre id. */
  datatype AddOutcome = AddOutcome(status: Status, db: Database, issued: nat, itemId: Option<Db.Value>, genreId: Option<int>)

  /** A `lastID` used as the `genre_id` parameter: an integer, or NULL. */
  function AsGenreRef(lastId: Option<Db.Value>): Option<int> {
    match lastId
    case Some(Int(n)) => Some(n)
    case _ => None
  }

  /** `INSERT INTO genres (name, "order") VALUES (?, 0)`, with `RETURNING id` on PostgreSQL. */
  function CreateGenre(engine: Db.Engine, db: Database, name: string): (r: (Inserted, Option<int>))
    ensures r.1 == Some(r.0.id) && r.0.id !in db.genres
    ensures r.0.db.genres == db.genres[r.0.id := Genre(name, 0)] && r.0.db.items == db.items
  {
    var ins := InsertGenre(db, NewGenre(name, Some(0)));
    (ins, AsGenreRef(Db.InsertedId(engine, engine == Db.Postgres, ins.id)))
  }

  /** `INSERT INTO items (genre_id, name, min_quantity, current_quantity)`; the item's order takes its default. */
  function CreateItem(engine: Db.Engine, db: Database, genreId: Option<int>, req: NewItemRequest): (r: (Inserted, Option<Db.Value>))
    ensures r.1 == Some(Db.Int(r.0.id)) && r.0.id !in db.items
    ensures r.0.db.items == db.items[r.0.id := Item(genreId, req.name, req.minQuantity, req.currentQuantity, ItemOrderDefault)]
    ensures r.0.db.genres == db.genres
  {
    var ins := InsertItem(db, NewItem(genreId, req.name, Some(req.minQuantity), Some(req.currentQuantity), None));
    (ins, Db.InsertedId(engine, engine == Db.Postgres, ins.id))
  }

  /**
   * The handler of `POST /api/items`: reject missing names with 400
   * before any statement; look the genre up by name; create it when
   * absent; insert the item under the resolved genre id.
   */
  function AddItem(engine: Db.Engine, db: Database, req: NewItemRequest, rejectAt: Option<nat>): (r: AddOutcome)
    ensures r.status == BadRequest <==> req.genreName == "" || req.name == ""
    ensures r.status == BadRequest ==> r.db == db && r.issued == 0
    ensures r.status == Ok <==> req.genreName != "" && req.name != "" && (rejectAt.None? || rejectAt.value >= r.issued)
    // an existing genre is reused: its first row's id, and no genre is created
    ensures r.status == Ok && FirstGenreNamed(db, req.genreName).Some? ==>
              && r.db.genres == db.genres
              && r.genreId == FirstGenreNamed(db, req.genreName)
              && r.issued == 2
    // an unknown genre is created once, with order 0, and the item points at it
    ensures r.status == Ok && FirstGenreNamed(db, req.genreName).None? ==>
              && r.genreId.Some? && r.genreId.value !in db.genres
              && r.db.genres == db.genres[r.genreId.value := Genre(req.genreName, GenreOrderDefault)]
              && r.issued == 3
    // exactly one item is added, carrying the request's fields
    ensures r.status == Ok ==>
              exists id :: id !in db.items && r.itemId == Some(Db.Int(id))
                && r.db.items == db.items[id := Item(r.genreId, req.name, req.minQuantity, req.currentQuantity, ItemOrderDefault)]
    // a failed item insert leaves no item, but a genre created just before it stays
    // at most the lookup, the genre insert when needed, and the item insert are issued
    ensures r.issued <= (if FirstGenreNamed(db, req.genreName).Some? then 2 else 3)
    // the rejected statement is the last one issued
    ensures r.status == ServerError ==> rejectAt.Some? && r.issued == rejectAt.value + 1
    ensures r.status == ServerError ==> r.db.items == db.items && db.genres.Keys <= r.db.genres.Keys
    ensures r.status == ServerError && rejectAt.value < 2 ==> r.db == db
    ensures r.status == ServerError && rejectAt.value == 2 ==>
              && FirstGenreNamed(db, req.genreName).None?
              && r.genreId.Some? && r.db.genres == db.genres[r.genreId.value := Genre(req.genreName, GenreOrderDefault)]
  {
    if req.genreName == "" || req.name == "" then AddOutcome(BadRequest, db, 0, None, None)
    else if Rejects(rejectAt, 0) then AddOutcome(ServerError, db, 1, None, None)
    else
      var found := FirstGenreNamed(db, req.genreName);
      if found.Some? then
        if Rejects(rejectAt, 1) then AddOutcome(ServerError, db, 2, None, None)
        else
          var (item, itemId) := CreateItem(engine, db, found, req);
          AddOutcome(Ok, item.db, 2, itemId, found)
      else if Rejects(rejectAt, 1) then AddOutcome(ServerError, db, 2, None, None)
      else
        var (genre, genreId) := CreateGenre(engine, db, req.genreName);
        if Rejects(rejectAt, 2) then AddOutcome(ServerError, genre.db, 3, None, genreId)
        else
          var (item, itemId) := CreateItem(engine, genre.db, genreId, req);
          AddOutcome(Ok, item.db, 3, itemId, genreId)
  }

  /** When the engine rejects none of the (at most three) statements, a request with both names succeeds. */
  lemma AddItemAcceptedIsOk(engine: Db.Engine, db: Database, req: NewItemRequest, rejectAt: Option<nat>)
    requires req.genreName != "" && req.name != ""
    requires rejectAt.None? || rejectAt.value >= 3
    ensures AddItem(engine, db, req, rejectAt).status == Ok
  {
  }

  // ---------------------------------------------------------------------
  // PUT /api/items/:id and DELETE /api/items/:id
  // ---------------------------------------------------------------------

  /** One awaited statement: applied unless the engine rejects it. */
  function Single(db: Database, after: Database, rejectAt: Option<nat>): (r: Outcome)
    ensures r.issued == 1
    ensures r.status == (if Rejects(rejectAt, 0) then ServerError else Ok)
    ensures r.db == (if r.status == Ok then after else db)
  {
    if Rejects(rejectAt, 0) then Outcome(ServerError, db, 1) else Outcome(Ok, after, 1)
  }

  /** The full update: no existence check, so an unknown id succeeds and changes nothing. */
  function UpdateItemHandler(db: Database, id: int, name: string, minQuantity: int, currentQuantity: int,
                             genreId: Option<int>, rejectAt: Option<nat>): (r: Outcome)
    ensures r.status == Ok <==> !Rejects(rejectAt, 0)
    ensures r.status == ServerError <==> Rejects(rejectAt, 0)
    ensures OnlyItemChanged(db, r.db, id)
    ensures r.status == Ok && id in db.items ==>
              r.db.items[id] == Item(genreId, name, minQuantity, currentQuantity, db.items[id].order)
    ensures r.status == ServerError || id !in db.items ==> r.db == db
  {
    Single(db, Store.UpdateItem(db, id, name, minQuantity, currentQuantity, genreId), rejectAt)
  }

  /** The delete: an unknown id succeeds and changes nothing; the genre is never touched. */
  function DeleteItemHandler(db: Database, id: int, rejectAt: Option<nat>): (r: Outcome)
    ensures r.status == Ok <==> !Rejects(rejectAt, 0)
    ensures r.status == ServerError <==> Rejects(rejectAt, 0)
    ensures r.db.genres == db.genres
    ensures r.status == Ok ==> r.db.items.Keys == db.items.Keys - {id}
    ensures forall other :: other in r.db.items ==> other in db.items && r.db.items[other] == db.items[other]
    ensures r.status == ServerError || id !in db.items ==> r.db == db
  {
    Single(db, Store.DeleteItem(db, id), rejectAt)
  }

  // ---------------------------------------------------------------------
  // The sequential batch loops
  // ---------------------------------------------------------------------

  /** The database after executing `batch` in order, one statement per element. */
  function Applied<U>(db: Database, batch: seq<U>, step: (Database, U) -> Database): Database {
    if |batch| == 0 then db else step(Applied(db, batch[..|batch| - 1], step), batch[|batch| - 1])
  }

  /**
   * `for (const u of batch) await db.query(...)` without a transaction:
   * a rejected statement ends the loop with the earlier ones applied.
   */
  method RunBatch<U>(db: Database, batch: seq<U>, step: (Database, U) -> Database, rejectAt: Option<nat>)
    returns (out: Outcome)
    ensures rejectAt.Some? && rejectAt.value < |batch| ==>
              out == Outcome(ServerError, Applied(db, batch[..rejectAt.value], step), rejectAt.value + 1)
    ensures rejectAt.None? || rejectAt.value >= |batch| ==>
              out == Outcome(Ok, Applied(db, batch, step), |batch|)
  {
    var current := db;
    var i := 0;
    while i < |batch|
      invariant 0 <= i <= |batch|
      invariant current == Applied(db, batch[..i], step)
      invariant rejectAt.Some? ==> rejectAt.value >= i
    {
      if Rejects(rejectAt, i) {
        return Outcome(ServerError, current, i + 1);
      }
      assert batch[..i + 1][..i] == batch[..i];
      current := step(current, batch[i]);
      i := i + 1;
    }
    assert batch[..|batch|] == batch;
    out := Outcome(Ok, current, |batch|);
  }

  datatype QuantityUpdate = QuantityUpdate(id: int, currentQuantity: int)
  datatype Purchase = Purchase(id: int, purchasedQuantity: int)
  datatype OrderUpdate = OrderUpdate(id: int, order: int)

  function SetStep(db: Database, u: QuantityUpdate): Database {
    SetCurrentQuantity(db, u.id, u.currentQuantity)
  }

  function AddStep(db: Database, p: Purchase): Database {
    AddCurrentQuantity(db, p.id, p.purchasedQuantity)
  }

  function OrderStep(db: Database, u: OrderUpdate): Database {
    SetGenreOrder(db, u.id, u.order)
  }

  /** `POST /api/inventory/update`: 400 unless `updates` is an array, then one SET per entry. */
  method Stocktake(db: Database, updates: Option<seq<QuantityUpdate>>, rejectAt: Option<nat>) returns (out: Outcome)
    ensures updates.None? ==> out == Outcome(BadRequest, db, 0)
    ensures updates.Some? && rejectAt.Some? && rejectAt.value < |updates.value| ==>
              out == Outcome(ServerError, Applied(db, updates.value[..rejectAt.value], SetStep), rejectAt.value + 1)
    ensures updates.Some? && (rejectAt.None? || rejectAt.value >= |updates.value|) ==>
              out == Outcome(Ok, Applied(db, updates.value, SetStep), |updates.value|)
  {
    if updates.None? {
      return Outcome(BadRequest, db, 0);
    }
    out := RunBatch(db, updates.value, SetStep, rejectAt);
  }

  /** `POST /api/shopping/complete`: 400 unless `items` is an array, then one increment per entry. */
  method CompleteShopping(db: Database, items: Option<seq<Purchase>>, rejectAt: Option<nat>) returns (out: Outcome)
    ensures items.None? ==> out == Outcome(BadRequest, db, 0)
    ensures items.Some? && rejectAt.Some? && rejectAt.value < |items.value| ==>
              out == Outcome(ServerError, Applied(db, items.value[..rejectAt.value], AddStep), rejectAt.value + 1)
    ensures items.Some? && (rejectAt.None? || rejectAt.value >= |items.value|) ==>
              out == Outcome(Ok, Applied(db, items.value, AddStep), |items.value|)
  {
    if items.None? {
      return Outcome(BadRequest, db, 0);
    }
    out := RunBatch(db, items.value, AddStep, rejectAt);
  }

  /**
   * `PUT /api/genres/reorder`: `genres` is not validated; iterating a
   * missing one throws before any statement, which surfaces as a server error.
   */
  method ReorderGenres(db: Database, genres: Option<seq<OrderUpdate>>, rejectAt: Option<nat>) returns (out: Outcome)
    ensures genres.None? ==> out == Outcome(ServerError, db, 0)
    ensures genres.Some? && rejectAt.Some? && rejectAt.value < |genres.value| ==>
              out == Outcome(ServerError, Applied(db, genres.value[..rejectAt.value], OrderStep), rejectAt.value + 1)
    ensures genres.Some? && (rejectAt.None? || rejectAt.value >= |genres.value|) ==>
              out == Outcome(Ok, Applied(db, genres.value, OrderStep), |genres.value|)
  {
    if genres.None? {
      return Outcome(ServerError, db, 0);
    }
    out := RunBatch(db, genres.value, OrderStep, rejectAt);
  }

  // ---------------------------------------------------------------------
  // What the batches do to the data
  // ---------------------------------------------------------------------

  /** The last position in `batch` of an element whose key is `id`, or -1. */
  function LastFor<U>(batch: seq<U>, key: U -> int, id: int): (k: int)
    ensures -1 <= k < |batch|
    ensures k >= 0 ==> key(batch[k]) == id
    ensures forall j :: k < j < |batch| ==> key(batch[j]) != id
  {
    if |batch| == 0 then -1
    else if key(batch[|batch| - 1]) == id then |batch| - 1
    else LastFor(batch[..|batch| - 1], key, id)
  }

  function UpdateId(u: QuantityUpdate): int { u.id }

  function OrderId(g: OrderUpdate): int { g.id }

  /**
   * After a stocktaking batch each known item holds the last quantity
   * listed for it, or its old one when unlisted; nothing else changes and
   * unknown ids are ignored.
   */
  lemma {:induction false} StocktakeEffect(db: Database, updates: seq<QuantityUpdate>)
    ensures var r := Applied(db, updates, SetStep);
            && r.genres == db.genres && r.items.Keys == db.items.Keys
            && r.nextGenreId == db.nextGenreId && r.nextItemId == db.nextItemId
            && forall id :: id in db.items ==>
                 var k := LastFor(updates, UpdateId, id);
                 r.items[id] == db.items[id].(currentQuantity := if k >= 0 then updates[k].currentQuantity
                                                                  else db.items[id].currentQuantity)
  {
    if |updates| > 0 {
      var init := updates[..|updates| - 1];
      StocktakeEffect(db, init);
      forall id | id in db.items
        ensures LastFor(updates, UpdateId, id) == (if updates[|updates| - 1].id == id then |updates| - 1
                                               else LastFor(init, UpdateId, id))
      {
      }
    }
  }

  /** The total purchased for `id` over a batch. */
  function PurchasedFor(items: seq<Purchase>, id: int): int {
    if |items| == 0 then 0
    else PurchasedFor(items[..|items| - 1], id) + (if items[|items| - 1].id == id then items[|items| - 1].purchasedQuantity else 0)
  }

  /**
   * After a shopping batch each known item's current quantity has grown
   * by everything purchased for it; nothing else changes.
   */
  lemma {:induction false} CompleteShoppingEffect(db: Database, items: seq<Purchase>)
    ensures var r := Applied(db, items, AddStep);
            && r.genres == db.genres && r.items.Keys == db.items.Keys
            && r.nextGenreId == db.nextGenreId && r.nextItemId == db.nextItemId
            && forall id :: id in db.items ==>
                 r.items[id] == db.items[id].(currentQuantity := db.items[id].currentQuantity + PurchasedFor(items, id))
  {
    if |items| > 0 {
      CompleteShoppingEffect(db, items[..|items| - 1]);
    }
  }

  /** After a reorder batch each known genre holds the last order listed for it; items are untouched. */
  lemma {:induction false} ReorderEffect(db: Database, genres: seq<OrderUpdate>)
    ensures var r := Applied(db, genres, OrderStep);
            && r.items == db.items && r.genres.Keys == db.genres.Keys
            && forall id :: id in db.genres ==>
                 var k := LastFor(genres, OrderId, id);
                 r.genres[id] == db.genres[id].(order := if k >= 0 then genres[k].order else db.genres[id].order)
  {
    if |genres| > 0 {
      ReorderEffect(db, genres[..|genres| - 1]);
    }
  }
}

=== FILE: shopping_list.dfy ===
/**
 * The shopping-list page (client/src/pages/ShoppingList.jsx): the list of
 * items below their minimum, the check toggle, and the purchase payload
 * sent to `POST /api/shopping/complete`.
 */
module ShoppingList {
  import opened Wrappers
  import opened Inventory
  import Store
  import Server

  /** A line of the list: the item, its genre's name, how many to buy, and the check mark. */
  datatype Entry = Entry(item: ItemView, genreName: string, toBuy: int, checked: bool)

  predicate NeedsBuying(it: ItemView) {
    it.currentQuantity < it.minQuantity
  }

  /** The line an item below its minimum gets; it starts unchecked. */
  function EntryFor(genreName: string, it: ItemView): Entry {
    Entry(it, genreName, it.minQuantity - it.currentQuantity, false)
  }

  /** The inner `genre.items.forEach`. */
  function GenreEntries(genreName: string, items: seq<ItemView>): seq<Entry> {
    if |items| == 0 then []
    else (if NeedsBuying(items[0]) then [EntryFor(genreName, items[0])] else []) + GenreEntries(genreName, items[1..])
  }

  /** The list `fetchInventory` builds from `/api/inventory`. */
  function BuildList(inventory: seq<GenreView>): (list: seq<Entry>)
    ensures forall e :: e in list ==> e.toBuy == e.item.minQuantity - e.item.currentQuantity
    ensures forall e :: e in list ==> e.toBuy >= 1 && !e.checked
  {
    if |inventory| == 0 then []
    else
      GenreEntriesShape(inventory[0].name, inventory[0].items);
      GenreEntries(inventory[0].name, inventory[0].items) + BuildList(inventory[1..])
  }

  lemma {:induction false} GenreEntriesShape(name: string, items: seq<ItemView>)
    ensures forall e :: e in GenreEntries(name, items) ==>
              e.toBuy == e.item.minQuantity - e.item.currentQuantity && e.toBuy >= 1 && !e.checked && e.genreName == name
    ensures forall e :: e in GenreEntries(name, items) ==> e.item in items
    ensures forall it :: it in items && NeedsBuying(it) ==> EntryFor(name, it) in GenreEntries(name, items)
  {
    if |items| > 0 {
      GenreEntriesShape(name, items[1..]);
    }
  }

  /**
   * An item of the inventory is on the list, under its genre's name,
   * exactly when its current quantity is below its minimum.
   */
  lemma {:induction false} OnListIffBelowMinimum(inventory: seq<GenreView>)
    ensures forall g, it :: g in inventory && it in g.items ==>
              (NeedsBuying(it) <==> EntryFor(g.name, it) in BuildList(inventory))
    ensures forall e :: e in BuildList(inventory) ==>
              NeedsBuying(e.item) && exists g :: g in inventory && e.genreName == g.name && e.item in g.items
  {
    if |inventory| > 0 {
      OnListIffBelowMinimum(inventory[1..]);
      GenreEntriesShape(inventory[0].name, inventory[0].items);
      forall g, it | g in inventory && it in g.items && EntryFor(g.name, it) in BuildList(inventory)
        ensures NeedsBuying(it)
      {
        var e := EntryFor(g.name, it);
        assert e.toBuy >= 1;
      }
      forall e | e in BuildList(inventory)
        ensures exists g :: g in inventory && e.genreName == g.name && e.item in g.items
      {
        if e in GenreEntries(inventory[0].name, inventory[0].items) {
          assert inventory[0] in inventory;
        } else {
          var g :| g in inventory[1..] && e.genreName == g.name && e.item in g.items;
          assert g in inventory;
        }
      }
    }
  }

  /** Each item paired with its genre's name. */
  function Pairs(name: string, items: seq<ItemView>): seq<(string, ItemView)> {
    if |items| == 0 then [] else [(name, items[0])] + Pairs(name, items[1..])
  }

  /** Each genre's (name, item) pairs, genre after genre, items in their order. */
  function Flatten(inventory: seq<GenreView>): seq<(string, ItemView)> {
    if |inventory| == 0 then [] else Pairs(inventory[0].name, inventory[0].items) + Flatten(inventory[1..])
  }

  function KeepNeeded(pairs: seq<(string, ItemView)>): seq<Entry> {
    if |pairs| == 0 then []
    else (if NeedsBuying(pairs[0].1) then [EntryFor(pairs[0].0, pairs[0].1)] else []) + KeepNeeded(pairs[1..])
  }

  lemma {:induction false} KeepNeededConcat(a: seq<(string, ItemView)>, b: seq<(string, ItemView)>)
    ensures KeepNeeded(a + b) == KeepNeeded(a) + KeepNeeded(b)
  {
    if |a| > 0 {
      assert (a + b)[1..] == a[1..] + b;
      KeepNeededConcat(a[1..], b);
    } else {
      assert a + b == b;
    }
  }

  lemma {:induction false} GenreEntriesAreKept(name: string, items: seq<ItemView>)
    ensures GenreEntries(name, items) == KeepNeeded(Pairs(name, items))
  {
    if |items| > 0 {
      GenreEntriesAreKept(name, items[1..]);
      KeepNeededConcat([(name, items[0])], Pairs(name, items[1..]));
    }
  }

  /**
   * The list is the inventory read genre by genre and item by item,
   * keeping the items below their minimum: its order is genre order, then
   * item order within a genre.
   */
  lemma {:induction false} ListFollowsInventoryOrder(inventory: seq<GenreView>)
    ensures BuildList(inventory) == KeepNeeded(Flatten(inventory))
  {
    if |inventory| > 0 {
      var g := inventory[0];
      ListFollowsInventoryOrder(inventory[1..]);
      GenreEntriesAreKept(g.name, g.items);
      KeepNeededConcat(Pairs(g.name, g.items), Flatten(inventory[1..]));
    }
  }

  // ---------------------------------------------------------------------
  // Checking items off
  // ---------------------------------------------------------------------

  /** `toggleCheck(id)`: flip the mark of the entries with that id. */
  function ToggleCheck(list: seq<Entry>, id: int): (r: seq<Entry>)
    ensures |r| == |list|
    ensures forall k :: 0 <= k < |list| ==> r[k].(checked := list[k].checked) == list[k]
    ensures forall k :: 0 <= k < |list| ==> (r[k].checked != list[k].checked <==> list[k].item.id == id)
  {
    seq(|list|, k requires 0 <= k < |list| =>
      if list[k].item.id == id then list[k].(checked := !list[k].checked) else list[k])
  }

  /** Toggling the same id twice restores the list. */
  lemma ToggleTwice(list: seq<Entry>, id: int)
    ensures ToggleCheck(ToggleCheck(list, id), id) == list
  {
    var r := ToggleCheck(ToggleCheck(list, id), id);
    forall k | 0 <= k < |list|
      ensures r[k] == list[k]
    {
    }
  }

  // ---------------------------------------------------------------------
  // Completing the purchase
  // ---------------------------------------------------------------------

  /** The checked entries, each asking for its `to_buy`, in list order. */
  function PurchasePayload(list: seq<Entry>): (payload: seq<Server.Purchase>)
    ensures |payload| <= |list|
  {
    if |list| == 0 then []
    else
      var last := list[|list| - 1];
      PurchasePayload(list[..|list| - 1])
      + (if last.checked then [Server.Purchase(last.item.id, last.toBuy)] else [])
  }

  /** The payload holds one purchase per checked entry and nothing else. */
  lemma {:induction false} PayloadIsCheckedEntries(list: seq<Entry>)
    ensures forall k :: 0 <= k < |list| && list[k].checked ==>
              Server.Purchase(list[k].item.id, list[k].toBuy) in PurchasePayload(list)
    ensures forall p :: p in PurchasePayload(list) ==>
              exists k :: 0 <= k < |list| && list[k].checked && p == Server.Purchase(list[k].item.id, list[k].toBuy)
    ensures PurchasePayload(list) == [] <==> forall k :: 0 <= k < |list| ==> !list[k].checked
  {
    if |list| > 0 {
      var init := list[..|list| - 1];
      PayloadIsCheckedEntries(init);
      assert forall k :: 0 <= k < |init| ==> init[k] == list[k];
    }
  }

  /** The positions of the checked entries, in list order. */
  function CheckedIndices(list: seq<Entry>): (ks: seq<nat>)
    ensures forall m :: 0 <= m < |ks| ==> ks[m] < |list| && list[ks[m]].checked
    ensures forall m, n :: 0 <= m < n < |ks| ==> ks[m] < ks[n]
    ensures forall k :: 0 <= k < |list| && list[k].checked ==> k in ks
  {
    if |list| == 0 then []
    else
      var init := list[..|list| - 1];
      assert forall k :: 0 <= k < |init| ==> init[k] == list[k];
      CheckedIndices(init) + (if list[|list| - 1].checked then [|list| - 1] else [])
  }

  /**
   * The payload is the checked entries exactly, in list order: its m-th
   * purchase is the one for the m-th checked entry, and there is no other.
   */
  lemma {:induction false} PayloadFollowsCheckedEntries(list: seq<Entry>)
    ensures var payload := PurchasePayload(list);
            var ks := CheckedIndices(list);
            && |payload| == |ks|
            && forall m :: 0 <= m < |payload| ==>
                 payload[m] == Server.Purchase(list[ks[m]].item.id, list[ks[m]].toBuy)
  {
    if |list| > 0 {
      var init := list[..|list| - 1];
      PayloadFollowsCheckedEntries(init);
      var p0, k0 := PurchasePayload(init), CheckedIndices(init);
      var payload, ks := PurchasePayload(list), CheckedIndices(list);
      assert payload[..|p0|] == p0;
      assert ks[..|k0|] == k0;
      forall m | 0 <= m < |p0|
        ensures payload[m] == Server.Purchase(list[ks[m]].item.id, list[ks[m]].toBuy)
      {
        assert payload[m] == p0[m];
        assert ks[m] == k0[m];
        assert list[k0[m]] == init[k0[m]];
      }
    }
  }

  /** `completeShopping`: with nothing checked no request is sent. */
  function CompleteShoppingRequest(list: seq<Entry>): (r: Option<seq<Server.Purchase>>)
    ensures r.None? <==> forall k :: 0 <= k < |list| ==> !list[k].checked
    ensures r.Some? ==> r.value == PurchasePayload(list) && |r.value| >= 1
  {
    PayloadIsCheckedEntries(list);
    var payload := PurchasePayload(list);
    if |payload| == 0 then None else Some(payload)
  }

  /** Distinct items on the list have distinct ids. */
  predicate DistinctIds(list: seq<Entry>) {
    forall i, j :: 0 <= i < j < |list| ==> list[i].item.id != list[j].item.id
  }

  /** The list was read from this database state: each entry's quantities are the stored ones. */
  predicate Current(db: Store.Database, list: seq<Entry>) {
    forall k :: 0 <= k < |list| ==>
      && list[k].item.id in db.items
      && db.items[list[k].item.id].minQuantity == list[k].item.minQuantity
      && db.items[list[k].item.id].currentQuantity == list[k].item.currentQuantity
  }

  lemma {:induction false} PurchasedForPayload(list: seq<Entry>, id: int)
    requires DistinctIds(list)
    ensures forall k :: 0 <= k < |list| && list[k].item.id == id ==>
              Server.PurchasedFor(PurchasePayload(list), id) == (if list[k].checked then list[k].toBuy else 0)
    ensures (forall k :: 0 <= k < |list| ==> list[k].item.id != id) ==>
              Server.PurchasedFor(PurchasePayload(list), id) == 0
  {
    if |list| > 0 {
      var init := list[..|list| - 1];
      var last := list[|list| - 1];
      assert forall k :: 0 <= k < |init| ==> init[k] == list[k];
      PurchasedForPayload(init, id);
      var payload := PurchasePayload(list);
      var extra := if last.checked then [Server.Purchase(last.item.id, last.toBuy)] else [];
      assert payload == PurchasePayload(init) + extra;
      PurchasedForAppend(PurchasePayload(init), extra, id);
    }
  }

  lemma PurchasedForAppend(a: seq<Server.Purchase>, extra: seq<Server.Purchase>, id: int)
    requires |extra| <= 1
    ensures Server.PurchasedFor(a + extra, id) ==
            Server.PurchasedFor(a, id) + (if |extra| == 1 && extra[0].id == id then extra[0].purchasedQuantity else 0)
  {
    if |extra| == 1 {
      assert (a + extra)[..|a + extra| - 1] == a;
    } else {
      assert a + extra == a;
    }
  }

  /**
   * Sending the payload of a list read from the database brings every
   * checked item exactly to its minimum, so it drops off the next list;
   * every other item keeps its quantity.
   */
  lemma PurchaseRestoresMinimum(db: Store.Database, list: seq<Entry>)
    requires forall k :: 0 <= k < |list| ==> list[k].toBuy == list[k].item.minQuantity - list[k].item.currentQuantity
    requires DistinctIds(list) && Current(db, list)
    ensures var after := Server.Applied(db, PurchasePayload(list), Server.AddStep);
            && after.items.Keys == db.items.Keys
            && (forall k :: 0 <= k < |list| && list[k].checked ==>
                  var it := after.items[list[k].item.id];
                  it.currentQuantity == it.minQuantity && !(it.currentQuantity < it.minQuantity))
            && (forall k :: 0 <= k < |list| && !list[k].checked ==>
                  after.items[list[k].item.id] == db.items[list[k].item.id])
            && (forall id :: id in db.items && (forall k :: 0 <= k < |list| ==> list[k].item.id != id) ==>
                  after.items[id] == db.items[id])
  {
    Server.CompleteShoppingEffect(db, PurchasePayload(list));
    forall k | 0 <= k < |list|
      ensures Server.PurchasedFor(PurchasePayload(list), list[k].item.id) == (if list[k].checked then list[k].toBuy else 0)
    {
      PurchasedForPayload(list, list[k].item.id);
    }
    forall id | id in db.items && (forall k :: 0 <= k < |list| ==> list[k].item.id != id)
      ensures Server.PurchasedFor(PurchasePayload(list), id) == 0
    {
      PurchasedForPayload(list, id);
    }
  }
}

=== FILE: stocktaking.dfy ===
/**
 * The stocktaking page (client/src/pages/Stocktaking.jsx): a map of edited
 * quantities keyed by item id, and the batch it submits to
 * `POST /api/inventory/update`.
 */
module Stocktaking {
  import opened Wrappers
  import opened Text
  import Store
  import Server

  /** One recorded edit: the item id and the quantity typed for it. */
  datatype Edit = Edit(id: int, quantity: int)

  /**
   * The `updates` object. Its keys are item ids, and a JavaScript object
   * enumerates integer keys in ascending order whatever the order of
   * insertion, so it is held as a list of edits by ascending id.
   */
  predicate Ascending(edits: seq<Edit>) {
    forall i, j :: 0 <= i < j < |edits| ==> edits[i].id < edits[j].id
  }

  type Edits = e: seq<Edit> | Ascending(e)

  /** `updates[id]`, or `None` when `id` has no edit. */
  function Lookup(edits: Edits, id: int): (r: Option<int>)
    ensures r.None? <==> forall k :: 0 <= k < |edits| ==> edits[k].id != id
    ensures r.Some? ==> exists k :: 0 <= k < |edits| && edits[k] == Edit(id, r.value)
  {
    if |edits| == 0 then None
    else if edits[0].id == id then Some(edits[0].quantity)
    else Lookup(edits[1..], id)
  }

  /** `parseInt(value) || 0`: NaN becomes 0 (and 0 stays 0). */
  function QuantityInput(value: string): (q: int)
    ensures ParseInt(value).None? ==> q == 0
    ensures ParseInt(value).Some? ==> q == ParseInt(value).value
  {
    ParseInt(value).GetOr(0)
  }

  lemma ConsAscending(e: Edit, rest: seq<Edit>)
    requires Ascending(rest)
    requires forall x :: x in rest ==> e.id < x.id
    ensures Ascending([e] + rest)
  {
    forall i, j | 0 <= i < j < |[e] + rest|
      ensures ([e] + rest)[i].id < ([e] + rest)[j].id
    {
      if i > 0 {
        assert ([e] + rest)[i] == rest[i - 1];
      }
      assert ([e] + rest)[j] == rest[j - 1];
      assert rest[j - 1] in rest;
    }
  }

  /** `{...prev, [id]: q}`: overwrite the edit of `id` in place, or insert it in id order. */
  function Put(edits: Edits, id: int, q: int): (r: Edits)
    ensures forall e :: e in r ==> e == Edit(id, q) || (e in edits && e.id != id)
    ensures forall e :: e in edits && e.id != id ==> e in r
    ensures Edit(id, q) in r
  {
    if |edits| == 0 then [Edit(id, q)]
    else
      var head := edits[0];
      var tail: Edits := edits[1..];
      assert edits == [head] + tail;
      assert forall x :: x in tail ==> head.id < x.id;
      if id <= head.id then
        var rest := if id == head.id then tail else edits;
        ConsAscending(Edit(id, q), rest);
        [Edit(id, q)] + rest
      else
        var rest := Put(tail, id, q);
        ConsAscending(head, rest);
        [head] + rest
  }

  /** `handleQuantityChange(id, value)`: record the typed quantity for `id`, keep every other edit. */
  function HandleQuantityChange(edits: Edits, id: int, value: string): (r: Edits)
    ensures Lookup(r, id) == Some(QuantityInput(value))
    ensures forall other :: other != id ==> Lookup(r, other) == Lookup(edits, other)
  {
    var r := Put(edits, id, QuantityInput(value));
    forall other | other != id
      ensures Lookup(r, other) == Lookup(edits, other)
    {
      UniqueIds(r, other);
      UniqueIds(edits, other);
    }
    UniqueIds(r, id);
    r
  }

  /** In id order, an id has at most one edit, and `Lookup` finds it. */
  lemma UniqueIds(edits: Edits, id: int)
    ensures forall k :: 0 <= k < |edits| && edits[k].id == id ==> Lookup(edits, id) == Some(edits[k].quantity)
  {
    forall k | 0 <= k < |edits| && edits[k].id == id
      ensures Lookup(edits, id) == Some(edits[k].quantity)
    {
      var q := Lookup(edits, id).value;
      var j :| 0 <= j < |edits| && edits[j] == Edit(id, q);
      assert j == k;
    }
  }

  /** A later edit of the same item replaces the earlier one. */
  lemma LaterEditWins(edits: Edits, id: int, first: string, second: string)
    ensures var twice := HandleQuantityChange(HandleQuantityChange(edits, id, first), id, second);
            forall x :: Lookup(twice, x) == Lookup(HandleQuantityChange(edits, id, second), x)
  {
  }

  /** `{ id: parseInt(id), current_quantity: updates[id] }` for one edit. */
  function UpdateFor(e: Edit): (u: Server.QuantityUpdate)
    ensures u == Server.QuantityUpdate(e.id, e.quantity)
  {
    ParseIntOfIntToString(e.id);
    Server.QuantityUpdate(ParseInt(IntToString(e.id)).GetOr(0), e.quantity)
  }

  /**
   * The batch `submitUpdates` builds from `Object.keys(updates)`: one
   * update per edited id, ascending, carrying the quantity recorded for it.
   */
  function UpdateList(edits: Edits): (updates: seq<Server.QuantityUpdate>)
    ensures |updates| == |edits|
    ensures forall k :: 0 <= k < |updates| ==> Lookup(edits, updates[k].id) == Some(updates[k].currentQuantity)
    ensures forall id :: Lookup(edits, id).Some? ==> exists k :: 0 <= k < |updates| && updates[k].id == id
    ensures forall i, j :: 0 <= i < j < |updates| ==> updates[i].id < updates[j].id
  {
    var updates := seq(|edits|, k requires 0 <= k < |edits| => UpdateFor(edits[k]));
    forall k | 0 <= k < |updates|
      ensures Lookup(edits, updates[k].id) == Some(updates[k].currentQuantity)
    {
      UniqueIds(edits, edits[k].id);
    }
    forall id | Lookup(edits, id).Some?
      ensures exists k :: 0 <= k < |updates| && updates[k].id == id
    {
      var k :| 0 <= k < |edits| && edits[k] == Edit(id, Lookup(edits, id).value);
      assert updates[k].id == id;
    }
    updates
  }

  /** The outcome of pressing submit: the batch posted, if any, and the edits left behind. */
  datatype Submitted = Submitted(request: Option<seq<Server.QuantityUpdate>>, edits: Edits)

  /** How `fetch` settles: rejected when nothing could be delivered, else resolved with the server's answer. */
  datatype Delivery = Undelivered | Answered(status: Server.Status)

  /**
   * `submitUpdates` as written: nothing is sent for an empty map; once
   * `fetch` resolves the edits are cleared, whatever status the server
   * answered, because `fetch` does not reject on an HTTP error.
   */
  function Submit(edits: Edits, delivery: Delivery): (r: Submitted)
    ensures r.request.None? <==> |edits| == 0
    ensures r.request.None? ==> r.edits == edits
    ensures r.request.Some? ==> r.request.value == UpdateList(edits)
    ensures r.request.Some? && delivery.Answered? ==> r.edits == []
    ensures delivery.Undelivered? ==> r.edits == edits
  {
    var updates := UpdateList(edits);
    if |updates| == 0 then Submitted(None, edits)
    else Submitted(Some(updates), if delivery.Answered? then [] else edits)
  }

  /**
   * The edits are discarded even when the server rejected the batch, so
   * quantities the server never stored are lost from the form.
   */
  lemma SubmitDiscardsRejectedEdits(edits: Edits)
    requires |edits| > 0
    ensures Submit(edits, Answered(Server.ServerError)).request.Some?
    ensures Submit(edits, Answered(Server.ServerError)).edits == []
  {
  }

  /** `submitUpdates` clearing the edits only when the server reports success. */
  function SubmitChecked(edits: Edits, delivery: Delivery): (r: Submitted)
    ensures r.request.None? <==> |edits| == 0
    ensures r.request.Some? ==> r.request.value == UpdateList(edits)
    ensures r.edits == [] <==> |edits| == 0 || delivery == Answered(Server.Ok)
    ensures delivery != Answered(Server.Ok) ==> r.edits == edits
  {
    var updates := UpdateList(edits);
    if |updates| == 0 then Submitted(None, edits)
    else Submitted(Some(updates), if delivery == Answered(Server.Ok) then [] else edits)
  }

  /**
   * Posting the submitted batch (no statement rejected) leaves every
   * edited item at the quantity last typed for it.
   */
  lemma {:induction false} SubmitSetsEditedQuantities(db: Store.Database, edits: Edits, id: int)
    ensures var r := Server.Applied(db, UpdateList(edits), Server.SetStep);
            id in db.items && Lookup(edits, id).Some? ==>
              id in r.items && r.items[id] == db.items[id].(currentQuantity := Lookup(edits, id).value)
  {
    var updates := UpdateList(edits);
    Server.StocktakeEffect(db, updates);
    if id in db.items && Lookup(edits, id).Some? {
      var k :| 0 <= k < |updates| && updates[k].id == id;
      assert Server.LastFor(updates, Server.UpdateId, id) >= k;
    }
  }

  /** The same batch leaves every item without an edit, and the genres, as they were. */
  lemma SubmitKeepsUneditedItems(db: Store.Database, edits: Edits)
    ensures var r := Server.Applied(db, UpdateList(edits), Server.SetStep);
            && r.items.Keys == db.items.Keys && r.genres == db.genres
            && (forall id :: id in db.items && Lookup(edits, id).None? ==> r.items[id] == db.items[id])
  {
    Server.StocktakeEffect(db, UpdateList(edits));
  }
}

=== FILE: store.dfy ===
/**
 * The two tables of the schema in server/db.js, held in memory, and one
 * operation per SQL statement the server issues. Ids are generated from
 * per-table counters that start at 1, as `SERIAL` and SQLite's
 * `AUTOINCREMENT` do.
 */
module Store {
  import opened Wrappers

  /** Column defaults declared by the DDL. */
  const GenreOrderDefault := 0
  const MinQuantityDefault := 1
  const CurrentQuantityDefault := 0
  const ItemOrderDefault := 0

  /** A row of `genres` (without its id, which is the map key). */
  datatype Genre = Genre(name: string, order: int)

  /**
   * A row of `items`. `genreId` is a nullable reference to `genres`: the
   * foreign key is enforced by PostgreSQL, not by SQLite (foreign-key
   * checks are never switched on there).
   */
  datatype Item = Item(genreId: Option<int>, name: string, minQuantity: int, currentQuantity: int, order: int)

  datatype Tables = Tables(genres: map<int, Genre>, items: map<int, Item>, nextGenreId: int, nextItemId: int)

  /** Every id was generated: it is positive and below its table's counter. */
  predicate Valid(t: Tables) {
    && t.nextGenreId >= 1 && t.nextItemId >= 1
    && (forall id :: id in t.genres ==> 1 <= id < t.nextGenreId)
    && (forall id :: id in t.items ==> 1 <= id < t.nextItemId)
  }

  /** The database: the tables with their id invariant. */
  type Database = t: Tables | Valid(t) witness Tables(map[], map[], 1, 1)

  /** A statement that generated a row: the database after it and the new id. */
  datatype Inserted = Inserted(db: Database, id: int)

  /** The row `INSERT INTO genres` creates; an omitted column takes its default. */
  function NewGenre(name: string, order: Option<int>): (g: Genre)
    ensures g.name == name
    ensures order.None? ==> g.order == GenreOrderDefault
    ensures order.Some? ==> g.order == order.value
  {
    Genre(name, order.GetOr(GenreOrderDefault))
  }

  /** The row `INSERT INTO items` creates; omitted columns take their defaults. */
  function NewItem(genreId: Option<int>, name: string, minQuantity: Option<int>,
                   currentQuantity: Option<int>, order: Option<int>): (it: Item)
    ensures it.genreId == genreId && it.name == name
    ensures it.minQuantity == (if minQuantity.Some? then minQuantity.value else MinQuantityDefault)
    ensures it.currentQuantity == (if currentQuantity.Some? then currentQuantity.value else CurrentQuantityDefault)
    ensures it.order == (if order.Some? then order.value else ItemOrderDefault)
  {
    Item(genreId, name, minQuantity.GetOr(MinQuantityDefault), currentQuantity.GetOr(CurrentQuantityDefault),
         order.GetOr(ItemOrderDefault))
  }

  predicate Named(db: Database, id: int, name: string) {
    id in db.genres && db.genres[id].name == name
  }

  /**
   * `SELECT id FROM genres WHERE name = ?`, first row: the scan visits
   * ids in increasing order, from `from` on.
   */
  function FirstNamedFrom(db: Database, name: string, from: int): (r: Option<int>)
    ensures r.Some? ==> Named(db, r.value, name) && from <= r.value
    ensures r.Some? ==> forall id :: from <= id < r.value ==> !Named(db, id, name)
    ensures r.None? ==> forall id :: from <= id ==> !Named(db, id, name)
    decreases db.nextGenreId - from
  {
    if from >= db.nextGenreId then None
    else if Named(db, from, name) then Some(from)
    else FirstNamedFrom(db, name, from + 1)
  }

  /** The id of the first genre called `name`, if there is one. */
  function FirstGenreNamed(db: Database, name: string): (r: Option<int>)
    ensures r.None? <==> forall id :: id in db.genres ==> db.genres[id].name != name
    ensures r.Some? ==> Named(db, r.value, name)
    ensures r.Some? ==> forall id :: Named(db, id, name) ==> r.value <= id
  {
    var r := FirstNamedFrom(db, name, 1);
    assert r.None? ==> forall id :: id in db.genres ==> 1 <= id && !Named(db, id, name);
    r
  }

  /** `INSERT INTO genres`: a new row under a fresh id; items untouched. */
  function InsertGenre(db: Database, g: Genre): (r: Inserted)
    ensures r.id >= 1 && r.id !in db.genres
    ensures r.db.genres == db.genres[r.id := g]
    ensures r.db.items == db.items
  {
    Inserted(db.(genres := db.genres[db.nextGenreId := g], nextGenreId := db.nextGenreId + 1), db.nextGenreId)
  }

  /** `INSERT INTO items`: a new row under a fresh id; genres untouched. */
  function InsertItem(db: Database, it: Item): (r: Inserted)
    ensures r.id >= 1 && r.id !in db.items
    ensures r.db.items == db.items[r.id := it]
    ensures r.db.genres == db.genres
  {
    Inserted(db.(items := db.items[db.nextItemId := it], nextItemId := db.nextItemId + 1), db.nextItemId)
  }

  /** Only row `id` of `items` may differ; no row appears or disappears and genres are untouched. */
  predicate OnlyItemChanged(before: Database, after: Database, id: int) {
    && after.genres == before.genres
    && after.items.Keys == before.items.Keys
    && after.nextGenreId == before.nextGenreId && after.nextItemId == before.nextItemId
    && (forall other :: other in before.items && other != id ==> after.items[other] == before.items[other])
  }

  /**
   * `UPDATE items SET name, min_quantity, current_quantity, genre_id WHERE id = ?`:
   * the row keeps its order; an unknown id changes nothing.
   */
  function UpdateItem(db: Database, id: int, name: string, minQuantity: int, currentQuantity: int,
                      genreId: Option<int>): (r: Database)
    ensures OnlyItemChanged(db, r, id)
    ensures id in db.items ==> r.items[id] == Item(genreId, name, minQuantity, currentQuantity, db.items[id].order)
    ensures id !in db.items ==> r == db
  {
    if id in db.items then
      db.(items := db.items[id := Item(genreId, name, minQuantity, currentQuantity, db.items[id].order)])
    else db
  }

  /** `DELETE FROM items WHERE id = ?`: no cascade, genres untouched. */
  function DeleteItem(db: Database, id: int): (r: Database)
    ensures r.items.Keys == db.items.Keys - {id}
    ensures forall other :: other in r.items ==> r.items[other] == db.items[other]
    ensures r.genres == db.genres
  {
    db.(items := db.items - {id})
  }

  /** `UPDATE items SET current_quantity = ? WHERE id = ?`. */
  function SetCurrentQuantity(db: Database, id: int, quantity: int): (r: Database)
    ensures OnlyItemChanged(db, r, id)
    ensures id in db.items ==> r.items[id] == db.items[id].(currentQuantity := quantity)
  {
    if id in db.items then db.(items := db.items[id := db.items[id].(currentQuantity := quantity)]) else db
  }

  /** `UPDATE items SET current_quantity = current_quantity + ? WHERE id = ?`. */
  function AddCurrentQuantity(db: Database, id: int, delta: int): (r: Database)
    ensures OnlyItemChanged(db, r, id)
    ensures id in db.items ==> r.items[id] == db.items[id].(currentQuantity := db.items[id].currentQuantity + delta)
  {
    if id in db.items then
      db.(items := db.items[id := db.items[id].(currentQuantity := db.items[id].currentQuantity + delta)])
    else db
  }

  /** Only row `id` of `genres` may differ; items are untouched. */
  predicate OnlyGenreChanged(before: Database, after: Database, id: int) {
    && after.items == before.items
    && after.genres.Keys == before.genres.Keys
    && after.nextGenreId == before.nextGenreId && after.nextItemId == before.nextItemId
    && (forall other :: other in before.genres && other != id ==> after.genres[other] == before.genres[other])
  }

  /** `UPDATE genres SET "order" = ? WHERE id = ?`. */
  function SetGenreOrder(db: Database, id: int, order: int): (r: Database)
    ensures OnlyGenreChanged(db, r, id)
    ensures id in db.genres ==> r.genres[id] == db.genres[id].(order := order)
  {
    if id in db.genres then db.(genres := db.genres[id := db.genres[id].(order := order)]) else db
  }
}

=== FILE: text.dfy ===
/**
 * The few JavaScript string primitives the application relies on:
 * decimal rendering of integers (template literals, `String(n)`),
 * `parseInt` with radix 10, `String.prototype.trim` and an upper-casing
 * of the Latin letters.
 */
module Text {
  import opened Wrappers

  predicate IsDigit(c: char) {
    '0' <= c <= '9'
  }

  predicate AllDigits(s: string) {
    forall i :: 0 <= i < |s| ==> IsDigit(s[i])
  }

  function DigitValue(c: char): (d: nat)
    requires IsDigit(c)
    ensures d < 10
  {
    c as int - '0' as int
  }

  function DigitChar(d: nat): (c: char)
    requires d < 10
    ensures IsDigit(c) && DigitValue(c) == d
  {
    ('0' as int + d) as char
  }

  /** The value of a string of decimal digits, most significant first. */
  function DigitsValue(s: string): nat
    requires AllDigits(s)
  {
    if |s| == 0 then 0 else DigitsValue(s[..|s| - 1]) * 10 + DigitValue(s[|s| - 1])
  }

  /** The decimal rendering of a natural number, without leading zeros. */
  function Decimal(n: nat): (r: string)
    ensures |r| >= 1 && AllDigits(r)
    ensures r[0] == '0' ==> |r| == 1
  {
    if n < 10 then [DigitChar(n)] else Decimal(n / 10) + [DigitChar(n % 10)]
  }

  /** Reading back a rendered number gives the number. */
  lemma {:induction false} DecimalRoundTrip(n: nat)
    ensures DigitsValue(Decimal(n)) == n
  {
    if n >= 10 {
      var r := Decimal(n);
      assert r[..|r| - 1] == Decimal(n / 10);
      DecimalRoundTrip(n / 10);
    }
  }

  /** The rendering of an integer, as `String(i)` produces it. */
  function IntToString(i: int): (r: string)
    ensures |r| >= 1
    ensures i >= 0 ==> AllDigits(r)
    ensures i < 0 ==> r[0] == '-' && AllDigits(r[1..])
  {
    if i < 0 then "-" + Decimal(-i) else Decimal(i)
  }

  /**
   * The white space `String.prototype.trim` and `parseInt` skip: the
   * ECMAScript WhiteSpace and LineTerminator code points.
   */
  predicate IsSpace(c: char) {
    c == '\t' || c == '\n' || c == '\U{000B}' || c == '\U{000C}' || c == '\r' || c == ' '
    || c == '\U{00A0}' || c == '\U{1680}' || ('\U{2000}' <= c <= '\U{200A}')
    || c == '\U{2028}' || c == '\U{2029}' || c == '\U{202F}' || c == '\U{205F}'
    || c == '\U{3000}' || c == '\U{FEFF}'
  }

  predicate AllSpace(s: string) {
    forall i :: 0 <= i < |s| ==> IsSpace(s[i])
  }

  /** The number of white-space characters `s` begins with. */
  function LeadingSpace(s: string): (k: nat)
    ensures k <= |s| && AllSpace(s[..k])
    ensures k < |s| ==> !IsSpace(s[k])
  {
    if |s| == 0 || !IsSpace(s[0]) then 0
    else
      var k := 1 + LeadingSpace(s[1..]);
      assert s[..k] == [s[0]] + s[1..][..k - 1];
      k
  }

  /** `s` without its trailing white space. */
  function TrimEnd(s: string): (r: string)
    ensures r <= s
    ensures AllSpace(s[|r|..])
    ensures |r| > 0 ==> !IsSpace(r[|r| - 1])
  {
    if |s| == 0 || !IsSpace(s[|s| - 1]) then s
    else
      var r := TrimEnd(s[..|s| - 1]);
      assert s[|r|..] == s[..|s| - 1][|r|..] + [s[|s| - 1]];
      r
  }

  /** `String.prototype.trim`: both ends stripped of white space. */
  function Trim(s: string): (r: string)
    ensures |r| <= |s|
    ensures |r| > 0 ==> !IsSpace(r[0]) && !IsSpace(r[|r| - 1])
  {
    TrimEnd(s[LeadingSpace(s)..])
  }

  /** Upper-casing of a single character, for the Latin letters a-z. */
  function UpperChar(c: char): char {
    if 'a' <= c <= 'z' then (c as int - 32) as char else c
  }

  function Upper(s: string): (r: string)
    ensures |r| == |s|
    ensures forall i :: 0 <= i < |s| ==> r[i] == UpperChar(s[i])
  {
    seq(|s|, i requires 0 <= i < |s| => UpperChar(s[i]))
  }

  /** The number of leading digits of `s`. */
  function DigitRun(s: string): (k: nat)
    ensures k <= |s| && AllDigits(s[..k])
    ensures k < |s| ==> !IsDigit(s[k])
  {
    if |s| == 0 || !IsDigit(s[0]) then 0
    else
      var k := 1 + DigitRun(s[1..]);
      assert s[..k] == [s[0]] + s[1..][..k - 1];
      k
  }

  /**
   * `parseInt(s)` in radix 10: skip leading white space, read an optional
   * sign, then the longest run of digits. No digit at all is NaN (`None`).
   */
  function ParseInt(s: string): (r: Option<int>)
    ensures r.None? <==>
              var t := s[LeadingSpace(s)..];
              var body := if |t| > 0 && (t[0] == '+' || t[0] == '-') then t[1..] else t;
              |body| == 0 || !IsDigit(body[0])
  {
    var t := s[LeadingSpace(s)..];
    var negative := |t| > 0 && t[0] == '-';
    var body := if |t| > 0 && (t[0] == '+' || t[0] == '-') then t[1..] else t;
    var k := DigitRun(body);
    if k == 0 then None
    else
      var magnitude: int := DigitsValue(body[..k]);
      Some(if negative then -magnitude else magnitude)
  }

  /** `parseInt(String(i)) === i` for every integer. */
  lemma ParseIntOfIntToString(i: int)
    ensures ParseInt(IntToString(i)) == Some(i)
  {
    var s := IntToString(i);
    var digits := if i < 0 then Decimal(-i) else Decimal(i);
    assert LeadingSpace(s) == 0;
    assert s[0..] == s;
    var body := if i < 0 then s[1..] else s;
    assert body == digits;
    AllDigitsRun(digits);
    assert digits[..|digits|] == digits;
    if i < 0 { DecimalRoundTrip(-i); } else { DecimalRoundTrip(i); }
  }

  lemma AllDigitsRun(s: string)
    requires AllDigits(s)
    ensures DigitRun(s) == |s|
  {
  }
}

=== FILE: wrappers.dfy ===
/** Option and Result: JavaScript's null/undefined and thrown errors, made explicit. */
module Wrappers {

  /** A value that may be absent (JavaScript `null` or `undefined`). */
  datatype Option<+T> = None | Some(value: T) {

    /** The wrapped value, or `default` when absent (JavaScript's `x || default` on non-falsy values). */
    function GetOr(default: T): T {
      match this
      case Some(v) => v
      case None => default
    }
  }

  /** The outcome of an operation that can reject, carrying the rejection message. */
  datatype Result<+T, +E> = Success(value: T) | Failure(error: E)
}
